=== FILE: README.md ===
# FontManager, modelled in Dafny

A model of the `FontManager` class of the WordPress Font Customizer Library
(`index.php`). A theme registers customizer sections with `add`: an id, the
CSS element the section styles, a title, a description and the properties the
section offers (font size, font weight, font family, line height). The font
family and font weight properties may list the fonts or weights on offer,
either as full records or by the name of a built-in record. `add_typekit`
stores a Typekit script URL. `output` reads the values the site owner stored
as theme mods (`fcl-font-size-<id>`, `fcl-line-height-<id>`,
`fcl-font-weight-<id>`, `fcl-font-family-<id>` and
`fcl-font-family-fallback-<id>`). From them it prints the stylesheet links of
the chosen fonts, one `<style id="fcl">` block and the Typekit script.

The project has five modules:

- `Php` (`php.dfy`) holds the PHP value semantics the class relies on:
  - `empty()` on strings, where only `""` and `"0"` are empty;
  - string-keyed arrays as ordered association lists, where a read sees the
    first entry for a key and an assignment overwrites in place or appends;
  - `array_unique`.
- `WordPress` (`wordpress.dfy`) holds `sanitize_key` and `wp_parse_args`.
- `Registry` (`registry.dfy`) holds the data model and `AddSpec`, which says
  what one `add` call computes: the error it returns, or the section it
  stores.
- `Renderer` (`renderer.dfy`) holds `Markup`, which says what `output`
  prints as a function of the sections, the Typekit URL and the theme mods.
  `$style`, `$fallback_style` and `$setting` are never reset by the source.
  They are carried from one property, and one section, to the next, so every
  stale value the source prints is part of the model. The module proves:
  - the invariant of the render loop (`RenderSound`);
  - the behaviours of the `switch` on the property;
  - a worked example.
- `Manager` (`manager.dfy`) holds the class `FontManager`. Its fields are
  `fcl`, `sectionPriority` and `typekit`. Its methods follow the source's
  loops statement by statement:
  - `Add`, `AddTypekit` and `Output`;
  - `ResolveChoices`, the nested loops that resolve names in place;
  - `FindChoice`, a `foreach` with `break` whose loop variable outlives the
    loop;
  - the echo loops.

  Each method is proved equal to the matching function of `Registry` or
  `Renderer`. `Output` returns the text instead of echoing it, and reads the
  theme mods from a map.

The model keeps these behaviours of the source exactly as written:

- Name lookup: a bare font or weight name resolves only when it is the name
  of the first built-in record. The check that raises "not registered" runs
  after every built-in record (`ScanFirstOnly`, `ExpandList`).
- Stale `$style`:
  - Size and line height are rendered even when the section disables them
    (`DisabledSizeStillRenders`, `LengthIgnoresArg`).
  - An unset font family re-declares the previous property's value
    (`StaleStyleReused`, `WeightOnlyArgs`).
  - An argument key other than the four properties re-declares `$style`
    under that key (`Switch`).
- Unmatched ids:
  - A weight id that matches no record is printed as the raw id
    (`UnmatchedWeightKept`).
  - A font id that matches nothing queues the `src` of the last record
    visited, or of the `$setting` left over from earlier
    (`PrimaryFont`).
  - A fallback id that matches nothing reuses the previous
    `$fallback_style` (`FallbackFont`).
- Stored output state:
  - `$rendered` starts empty.
  - `$rendered` is keyed by element, so two sections that style the same
    element share one rule, and a redeclared property keeps its first
    position (`Declare`).
  - A `$setting` that was never assigned queues an empty link (`Queued`).
  - The built-in weights have no `src` key. A built-in weight left in
    `$setting` by `font-weight` is queued as an empty link by a
    `font-family` whose setting lists no record (`false` or an empty list)
    (`StaleWeightQueuesEmptyLink`). Over a non-empty font list an unmatched
    id leaves the last font record in `$setting` instead, and that record's
    `src` is queued (`PrimaryFont`).
- Records keep the three states of their `src` key: missing, `false`, or a
  URL (`Registry.Src`). A missing key reads as `null` and queues an empty
  link; `false` queues nothing.
- `$style` is not reset between sections, but a stored section always starts
  with `font-size`, which overwrites it. So a section with nothing stored
  prints nothing, whatever the previous section left
  (`UnstoredSectionRendersNothing`, `NothingStoredPrintsNothing`).

## Model

| member | source | states |
|---|---|---|
| Php.IsEmpty | index.php:75-85 | `empty()` and `!` on a string: only `""` and `"0"` are empty; the same test guards the weight and font mods (lines 274, 291, 310), the declaration (line 332) and the Typekit script (line 361) |
| Php.Lookup | index.php:302 | reading `$a[$k]`: a value exactly when the key is present, and that value is one of the key's entries |
| Php.Put | index.php:223 | assigning a key makes it read the new value, leaves every other key's value alone, keeps an existing key's position or appends a new key last, and keeps keys unique |
| Php.PutAllLookup | index.php:96 | after assigning a list of updates over an array, a key reads its updated value if it was updated and its old value otherwise |
| Php.PutAllKeys | index.php:96 | the keys after assigning are exactly the old keys and the updated keys, each once |
| Php.PutAllPrefix | index.php:96 | assigning over an array keeps its keys first and in their order |
| Php.Unique | index.php:343 | `array_unique` keeps each value once, loses none, and keeps the order of first occurrences |
| WordPress.SanitizeKey | index.php:61-62 | a sanitized id holds only a-z, 0-9, `_` and `-`, and is no longer than the input |
| WordPress.SanitizeKeyKeepsKeys | index.php:88 | an id that is already clean is stored unchanged |
| WordPress.SanitizeKeyIdempotent | index.php:88 | sanitizing a sanitized id changes nothing |
| WordPress.SanitizeKeyIgnoresCase | index.php:88 | ids differing only in ASCII letter case map to the same key |
| WordPress.ParseArgs | index.php:96 | `wp_parse_args`: the defaults assigned over by the caller's values, in order; its properties are stated by `ParseArgsSpec` |
| WordPress.ParseArgsSpec | index.php:90-96 | the merged arguments list the defaults' keys first and in order, have unique keys, and read the caller's value where given and the default otherwise |
| Registry.AddValidation | index.php:75-85 | `add` fails with `no-id` exactly when the id is empty, then `no-element` when the element is empty, then `no-name` when the title is empty |
| Registry.DefaultArgKeys | index.php:90-95 | the default arguments are the four properties, in order, each `true` |
| Registry.MergedShape | index.php:90-96 | the merged arguments start with the four property keys in default order, each once |
| Registry.ScanDefaults | index.php:141-149 | the inner loop over the built-in records for one bare name: with a non-empty list a success is a full record, and the result is the item itself or a built-in record carrying the name |
| Registry.ResolveEntries | index.php:137-151 | the outer loop over a caller list: a success keeps the list's length and, with a non-empty built-in list, holds only full records |
| Registry.Expand | index.php:134-152 | a boolean always expands; a success is `false` or a list of full records, and a caller list keeps its length |
| Registry.ExpandKey | index.php:134-200 | an unset key is left alone; a success keeps every key in its position and every other key's value |
| Registry.ExpandedArgs | index.php:90-200 | merging then expanding fonts and weights either fails with `font-not-registered` or `font-weight-not-registered`, or yields arguments at least as long as the defaults |
| Registry.AddSpec | index.php:74-224 | a stored section needs a non-empty id, element and title, is keyed by a clean id and keeps element, title and description |
| Registry.ScanFromFull | index.php:141-149 | once a list item is a full record the scan keeps it full: it stays the record it was or becomes a built-in record carrying the name, and with no such record it is unchanged |
| Registry.ScanFirstOnly | index.php:141-149 | a bare name resolves exactly when the first built-in record carries it, and then resolves to a built-in record with that name (the first one, as the built-in names are distinct) |
| Registry.ResolveEntriesSpec | index.php:136-151 | a caller list resolves exactly when every bare name in it is the first built-in record's name; full records stay and bare names become full built-in records with that name |
| Registry.DefaultListsHaveDistinctNames | index.php:98-117 | the built-in fonts and weights have distinct names |
| Registry.ExpandFlags | index.php:134-135 | `true` becomes the whole built-in list and `false` stays `false` |
| Registry.ExpandList | index.php:136-151 | a caller list fails exactly when a bare name differs from the first built-in record's name; otherwise it keeps its length and every bare name becomes the first built-in record |
| Registry.ExpandKeySettles | index.php:134-152 | expanding one key fails exactly when its value fails to expand; otherwise only that key changes, keys keep their order, and its value becomes `false` or a list of full records |
| Registry.StoredFonts | index.php:133-152 | `add` fails with `font-not-registered` exactly when the caller's font setting (or `true` when omitted) fails to expand; otherwise that expansion is stored |
| Registry.StoredWeights | index.php:180-200 | once fonts expanded, `add` fails with `font-weight-not-registered` exactly when the caller's weight setting (or `true`) fails to expand; otherwise that expansion is stored |
| Registry.StoredOtherKeys | index.php:96 | every other argument keeps the caller's value, and an omitted property is `true` |
| Registry.ExpandedShape | index.php:96-200 | the stored arguments have unique keys, the four properties first in order, and `false` or full-record lists for fonts and weights |
| Registry.AddStoresWellFormed | index.php:215-224 | a stored section is keyed by the sanitized id, keeps element, title and description, and has well-formed arguments |
| Renderer.Declare | index.php:333 | the declared property reads the new value; other properties of the element and other elements are unchanged; an element or property already present keeps its position, a new one goes last; a new element's rule holds only that property |
| Renderer.Mod | index.php:259-261 | `get_theme_mod`: the stored value, or `""` standing for its `false` default when nothing is stored; the same read serves lines 265-267, 271-273, 287-289 and 306-308 |
| Renderer.Iterated | index.php:278 | the records a `foreach` over the setting visits: none for a boolean; for a list of full records (every list `add` stores) exactly those records, in order |
| Renderer.FullChoices | index.php:295 | the full records of a list, each present in the list; for a list of full records, all of them in order |
| Renderer.AfterScan | index.php:278-283 | after a `foreach` over a non-empty list, `$setting` is one of its records; over an empty list it keeps its old value |
| Renderer.Queued | index.php:302-304 | at most one link is queued; nothing exactly when `$setting`'s `src` is `false`; the record's URL when its `src` is one; the empty string for a missing `src` or an unassigned `$setting` |
| Renderer.WeightStep | index.php:270-284 | an unset or `"0"` weight id only overwrites `$style` (the `! $style` guard, so `$setting` is untouched); otherwise the id takes the value of the first record with that id, which becomes `$setting`; with no such record the raw id stays in `$style` and `$setting` becomes the list's last record (unchanged for an empty list); `$fallback_style` is untouched |
| Renderer.FamilyStep | index.php:286-329 | at most two links are queued, at most one without a fallback; with no font stored nothing changes; without a fallback `$fallback_style` is untouched; `$setting` keeps its value or becomes a record of the list |
| Renderer.Switch | index.php:257-330 | only `font-family` queues links; only weight and family change `$setting`; any other key leaves every carried variable as it was |
| Renderer.PropertyStep | index.php:257-334 | one property step only appends links (at most two), adds at most its own element to the rules, and changes the rules only when `$style` is non-empty |
| Renderer.ArgsFrom | index.php:256-335 | the loop over a section's arguments only appends links, at most two per argument, and adds at most its own element to the rules |
| Renderer.SectionsFrom | index.php:254-336 | the loop over the sections only appends links, keeps the rules' elements first and in order, and adds at most one element per section |
| Renderer.LinkTag | index.php:345 | the `<link class="fcl-font" rel="stylesheet" href="…">` tag for one source |
| Renderer.LinkTags | index.php:344-346 | the link tags in order; empty exactly when no link is queued |
| Renderer.DeclsText | index.php:352-354 | `property:value;` for each declaration in order; empty exactly when there is none |
| Renderer.RuleText | index.php:351-355 | one rule: the element, `{`, its declarations, `}` |
| Renderer.RulesText | index.php:350-356 | the rules in order; empty exactly when no rule exists |
| Renderer.TypekitTag | index.php:361-363 | the Typekit script tags, printed exactly when the URL is non-empty |
| Renderer.Markup | index.php:246-364 | what `output` prints: nothing for an empty registry or an empty rule table, else the unique links, the style block and the Typekit script; its properties are stated by `MarkupEmpty`, `RenderSound` and `NothingStoredPrintsNothing` |
| Renderer.RenderSound | index.php:254-336 | whatever the theme mods: one rule per element, and every element one a section registered; each property at most once per rule, and no empty value; every queued link empty or the `src` of a registered record, so a record whose `src` is false is never linked; each printed link distinct |
| Renderer.PropertyStepSound | index.php:257-334 | one property step keeps the render-loop invariant |
| Renderer.ArgsFromSound | index.php:256-335 | the loop over a section's arguments keeps the render-loop invariant |
| Renderer.SectionsFromSound | index.php:254-336 | the loop over the sections keeps the render-loop invariant |
| Renderer.MarkupEmpty | index.php:248-250 | nothing is printed exactly when no section is registered or no property was declared |
| Renderer.DisabledSizeStillRenders | index.php:258-262 | a stored font size is declared even when the section's `font-size` argument is `false` |
| Renderer.LengthIgnoresArg | index.php:258-268 | font size and line height do not depend on the section's argument |
| Renderer.UnsetLengthDeclaresNothing | index.php:258-268 | an unset size or line height declares nothing but overwrites `$style` |
| Renderer.StaleStyleReused | index.php:287-293 | with no font stored, `font-family` is declared with the `$style` the previous property left, and nothing is queued |
| Renderer.SingleWeightChosen | index.php:270-284 | a stored weight id matching the only record declares that record's value and makes it `$setting` |
| Renderer.ChosenWeight | index.php:270-284 | a stored weight id picks the first record with that id in the section's own list: that record becomes `$setting`, its non-empty value is declared as `font-weight`, and nothing is queued |
| Renderer.ChosenFont | index.php:286-304 | a stored font id, with no fallback, picks the first record with that id in the section's own list: it becomes `$setting`, its non-empty value is declared as `font-family`, and its `src` is queued |
| Renderer.UnmatchedWeightKept | index.php:270-284 | a stored weight id that no record has is declared as the raw id |
| Renderer.PrimaryFont | index.php:286-304 | a matched font gives its value and queues its own `src`; an unmatched one keeps `$style` and queues the `src` of the last record visited (or of the leftover `$setting`) |
| Renderer.FallbackFont | index.php:306-328 | the fallback's value (or the previous `$fallback_style` when unmatched) is appended after a comma unless it equals the primary's; after the primary's link, the fallback scan queues the `src` of the matched fallback record, or of the last record visited when none matches |
| Renderer.StaleWeightQueuesEmptyLink | index.php:295-304 | a built-in weight left in `$setting` is queued as an empty link by a `font-family` that stores an id but lists no record, and the carried variables do not change |
| Renderer.UnstoredStep | index.php:257-334 | with nothing stored for the section and `$style` empty, a property declares nothing, queues nothing and leaves `$style` empty |
| Renderer.UnstoredArgs | index.php:256-335 | the same over any list of arguments |
| Renderer.UnstoredSectionRendersNothing | index.php:254-336 | a stored section with nothing stored for it declares and queues nothing, whatever `$style` the previous section left, because its first property `font-size` overwrites `$style` |
| Renderer.UnstoredSections | index.php:254-336 | a registry of stored sections with nothing stored for any declares and queues nothing |
| Renderer.NothingStoredPrintsNothing | index.php:246-340 | with nothing stored for any stored section, `output` prints nothing, not even the Typekit script |
| Renderer.WeightOnlyArgs | index.php:254-336 | a section offering one weight, with that weight chosen and nothing else stored, declares the weight and also `font-family` with the same value, and links nothing |
| Renderer.WeightOnlySection | index.php:246-364 | that section prints exactly the style block with that one rule, followed by the Typekit script if set |
| Manager.FindChoice | index.php:278-283 | the `foreach`/`break` stops at the first record with the wanted id (or runs off the end), and `$setting` is then that record, the last record, or its old value for an empty list |
| Manager.ResolveChoices | index.php:136-151 | the nested loops that rewrite bare names in place compute `ResolveEntries` |
| Manager.ExpandSetting | index.php:134-152 | one expansion block of `add` computes `ExpandKey` |
| Manager.RenderWeight | index.php:270-284 | the `font-weight` case computes `WeightStep` |
| Manager.RenderFamily | index.php:286-329 | the `font-family` case computes `FamilyStep` |
| Manager.RenderProperty | index.php:257-334 | one iteration of the argument loop computes `PropertyStep` |
| Manager.RenderSection | index.php:256-335 | the loop over one section's arguments computes `ArgsFrom` |
| Manager.EchoLinks | index.php:342-347 | the link loop prints `LinkTags` |
| Manager.EchoDecls | index.php:352-354 | the declaration loop prints `DeclsText` |
| Manager.EchoRules | index.php:349-357 | the rule loop prints `RulesText` |
| Manager.Echo | index.php:342-363 | the final echoes print links, style block and Typekit script in that order |
| Manager.FontManager.constructor | index.php:46-51 | a new manager has no sections and no Typekit URL, and its priority is the given one or 40 |
| Manager.FontManager.Add | index.php:74-225 | `add` returns the error `AddSpec` gives and changes nothing, or stores `AddSpec`'s section under its sanitized id (replacing an earlier one in place) and returns true; the registry stays well formed |
| Manager.FontManager.AddTypekit | index.php:235-238 | `add_typekit` stores the URL, returns true and changes nothing else |
| Manager.FontManager.Output | index.php:246-364 | `output` prints exactly `Markup` of the registry, the Typekit URL and the theme mods |

## Left out

- `customizer()` and the customizer controls it registers are not modelled. They are WordPress UI.
- The `wp_footer` and `customize_register` hooks are not modelled. They only schedule `output` and `customizer`.
- The `ABSPATH` guard is not modelled. It only protects the file from direct access.
- `demo.php` is not modelled.
- The filters `fcl::default-fonts`, `fcl::default-font-weight` and `fcl::args` are the identity. A filter that empties a built-in list is therefore not modelled, and the resolution lemmas require a non-empty built-in list.
- Translation (`__()`) is left out, so the weight names are their untranslated text.
- The error messages built with `sprintf` are left out; only the error code is kept.
- `get_theme_mod` becomes a map. An unset mod reads as `""`, which behaves like PHP's `false` under `empty()` and `!`. Loose comparisons are plain equality. The two differ only for `false` against `"0"` when `$fallback_style` is compared with `$style`.
- Undefined `$style` and `$fallback_style` read as `""`, as PHP's `null` does in these string operations.
- `$rendered` starts as the empty table. The source never initialises it, and it counts it with `count()`, which PHP 7 answers with 0 and PHP 8 rejects.
- A font or weight setting given as something other than a boolean or an array (a string, say) is not modelled.
- A list item that is neither a name nor a record is not modelled.
- `Output` iterates only the full records of a list. Bare names cannot remain after `add`, so this changes nothing for a registry built by `Add`.
- The default parameter values of `add` (`$description = ''`, `$args = array()`) have no Dafny counterpart; `Add(id, element, title, "", [])` is the call that omits both.
- Manager.FontManager.constructor: only `section_priority` is read from the constructor arguments, as an optional integer.

=== FILE: manager.dfy ===
/**
  The `FontManager` object: its registry of sections `fcl`, its section
  priority and its Typekit URL, and the methods that change or read them.
  `output` returns the text it would echo, and reads the theme mods from a
  map instead of `get_theme_mod`.
 */
module Manager {
  import opened Php
  import opened WordPress
  import opened Registry
  import opened Renderer

  /**
    `foreach ($settings as $setting) { if ($setting['id'] == $wanted) { ...; break; } }`:
    the index the loop stops at (`|settings|` when nothing matches) and the
    value `$setting` holds afterwards.
   */
  method FindChoice(settings: seq<Choice>, wanted: string, setting: Option<Choice>) returns (k: nat, current: Option<Choice>)
    ensures k <= |settings|
    ensures k < |settings| ==> settings[k].id == wanted && current == Some(settings[k])
    ensures forall j :: 0 <= j < k ==> settings[j].id != wanted
    ensures k == |settings| ==> current == (if settings == [] then setting else Some(settings[|settings| - 1]))
    ensures k == FirstIndex(Ids(settings), wanted) && current == AfterScan(settings, k, setting)
  {
    k, current := 0, setting;
    while k < |settings|
      invariant k <= |settings|
      invariant forall j :: 0 <= j < k ==> settings[j].id != wanted
      invariant current == if k == 0 then setting else Some(settings[k - 1])
    {
      current := Some(settings[k]);
      if settings[k].id == wanted {
        break;
      }
      k := k + 1;
    }
  }

  ghost function Prepend(done: seq<Entry>, rest: Option<seq<Entry>>): Option<seq<Entry>> {
    if rest.None? then None else Some(done + rest.value)
  }

  lemma PrependAssoc(a: seq<Entry>, b: seq<Entry>, rest: Option<seq<Entry>>)
    ensures Prepend([], rest) == rest
    ensures Prepend(a, Prepend(b, rest)) == Prepend(a + b, rest)
  {
    if rest.Some? {
      assert [] + rest.value == rest.value;
      assert a + (b + rest.value) == (a + b) + rest.value;
    }
  }

  /**
    The nested loops of `add` that rewrite, in place, each bare name of a
    caller's list into the default record with that name; `None` where `add`
    returns a "not registered" error.
   */
  method ResolveChoices(entries: seq<Entry>, defaults: seq<Choice>) returns (r: Option<seq<Entry>>)
    ensures r == ResolveEntries(entries, defaults)
  {
    var list := entries;
    var k := 0;
    assert entries[0..] == entries;
    assert list[..0] == [];
    PrependAssoc([], [], ResolveEntries(entries, defaults));
    while k < |list|
      invariant k <= |list| == |entries|
      invariant list[k..] == entries[k..]
      invariant ResolveEntries(entries, defaults) == Prepend(list[..k], ResolveEntries(entries[k..], defaults))
    {
      ghost var rest := entries[k..];
      assert rest[0] == entries[k] && rest[1..] == entries[k + 1..];
      ghost var before := list;
      if list[k].Bare? {
        var name := list[k].name;
        var j := 0;
        assert defaults[0..] == defaults;
        while j < |defaults|
          invariant j <= |defaults|
          invariant |list| == |before| && list == before[k := list[k]]
          invariant ScanDefaults(entries[k], name, defaults) == ScanDefaults(list[k], name, defaults[j..])
        {
          assert defaults[j..][0] == defaults[j] && defaults[j..][1..] == defaults[j + 1..];
          if defaults[j].name == name {
            list := list[k := Full(defaults[j])];
          }
          if list[k].Bare? {
            return None;
          }
          j := j + 1;
        }
      }
      assert ResolveEntries(rest, defaults) == Prepend([list[k]], ResolveEntries(entries[k + 1..], defaults));
      assert list[..k + 1] == before[..k] + [list[k]];
      PrependAssoc(before[..k], [list[k]], ResolveEntries(entries[k + 1..], defaults));
      assert list[k + 1..] == entries[k + 1..];
      k := k + 1;
    }
    assert list[..k] == list;
    assert ResolveEntries(entries[k..], defaults) == Some([]);
    assert list + [] == list;
    r := Some(list);
  }

  /** The `font-weight` case once the stored id is read: look the id up and take its value. */
  method RenderWeight(carry: Carry, stored: string, settings: seq<Choice>) returns (next: Carry)
    ensures next == WeightStep(carry, stored, settings)
  {
    next := carry.(style := stored);
    if !IsEmpty(stored) {
      var k, setting := FindChoice(settings, stored, carry.setting);
      if k < |settings| {
        next := next.(style := settings[k].value);
      }
      next := next.(setting := setting);
    }
  }

  /**
    The `font-family` case once both stored ids are read: the primary font's
    value, the fallback's value appended when it differs, and the sources the
    two `$setting['src']` checks queue.
   */
  method RenderFamily(carry: Carry, fontId: string, fallbackId: string, settings: seq<Choice>)
    returns (next: Carry, queued: seq<string>)
    ensures (next, queued) == FamilyStep(carry, fontId, fallbackId, settings)
  {
    next, queued := carry, [];
    if IsEmpty(fontId) {
      return;
    }
    var style, fallbackStyle := carry.style, carry.fallback;
    var k, setting := FindChoice(settings, fontId, carry.setting);
    if k < |settings| {
      style := settings[k].value;
    }
    queued := Queued(setting);
    if IsEmpty(fallbackId) {
      next := carry.(style := style, setting := setting);
      return;
    }
    var first := setting;
    k, setting := FindChoice(settings, fallbackId, first);
    if k < |settings| {
      fallbackStyle := settings[k].value;
    }
    queued := queued + Queued(setting);
    if fallbackStyle != style {
      style := style + "," + fallbackStyle;
    }
    next := Carry(style, fallbackStyle, setting);
  }

  /**
    One iteration of the loop over a section's arguments: the `switch` on the
    property, then `$rendered[$element][$property] = $style` for a non-empty
    `$style`.
   */
  method RenderProperty(acc: Acc, sectionId: string, element: string, property: string, arg: Arg,
                        themeMods: map<string, string>) returns (next: Acc)
    ensures next == PropertyStep(acc, sectionId, element, property, arg, themeMods)
  {
    var carry := acc.carry;
    var queued: seq<string> := [];
    var settings := Iterated(arg);
    if property == FontSize {
      carry := carry.(style := Mod(themeMods, "fcl-font-size-" + sectionId));
    } else if property == LineHeight {
      carry := carry.(style := Mod(themeMods, "fcl-line-height-" + sectionId));
    } else if property == FontWeight {
      carry := RenderWeight(carry, Mod(themeMods, "fcl-font-weight-" + sectionId), settings);
    } else if property == FontFamily {
      carry, queued := RenderFamily(carry, Mod(themeMods, "fcl-font-family-" + sectionId),
                                    Mod(themeMods, "fcl-font-family-fallback-" + sectionId), settings);
    }
    var rendered := acc.rendered;
    if !IsEmpty(carry.style) {
      rendered := Declare(rendered, element, property, carry.style);
    }
    next := Acc(carry, rendered, acc.links + queued);
  }

  /** The loop over one section's arguments, in their order. */
  method RenderSection(acc: Acc, sectionId: string, element: string, args: Args, themeMods: map<string, string>)
    returns (next: Acc)
    ensures next == ArgsFrom(acc, sectionId, element, args, themeMods)
  {
    next := acc;
    var j := 0;
    while j < |args|
      invariant j <= |args|
      invariant ArgsFrom(next, sectionId, element, args[j..], themeMods) == ArgsFrom(acc, sectionId, element, args, themeMods)
    {
      assert args[j..][1..] == args[j + 1..];
      next := RenderProperty(next, sectionId, element, args[j].0, args[j].1, themeMods);
      j := j + 1;
    }
  }

  /** The loop that echoes one `<link>` tag per queued source. */
  method EchoLinks(links: seq<string>) returns (html: string)
    ensures html == LinkTags(links)
  {
    html := "";
    var n := 0;
    while n < |links|
      invariant n <= |links|
      invariant html == LinkTags(links[..n])
    {
      assert links[..n + 1][..n] == links[..n];
      html := html + LinkTag(links[n]);
      n := n + 1;
    }
    assert links[..n] == links;
  }

  /** The inner loop that echoes `property:value;` for each declaration of one element. */
  method EchoDecls(properties: Decls) returns (html: string)
    ensures html == DeclsText(properties)
  {
    html := "";
    var d := 0;
    while d < |properties|
      invariant d <= |properties|
      invariant html == DeclsText(properties[..d])
    {
      assert properties[..d + 1][..d] == properties[..d];
      html := html + properties[d].0 + ":" + properties[d].1 + ";";
      d := d + 1;
    }
    assert properties[..d] == properties;
  }

  /** The outer loop that echoes `element{...}` for each rendered element. */
  method EchoRules(rendered: Rules) returns (html: string)
    ensures html == RulesText(rendered)
  {
    html := "";
    var e := 0;
    while e < |rendered|
      invariant e <= |rendered|
      invariant html == RulesText(rendered[..e])
    {
      assert rendered[..e + 1][..e] == rendered[..e];
      var body := EchoDecls(rendered[e].1);
      html := html + (rendered[e].0 + "{" + body + "}");
      e := e + 1;
    }
    assert rendered[..e] == rendered;
  }

  /** The echoes at the end of `output`: link tags, the style block, the Typekit script. */
  method Echo(links: seq<string>, rendered: Rules, typekit: string) returns (html: string)
    ensures html == LinkTags(links) + StyleOpen + RulesText(rendered) + StyleClose + TypekitTag(typekit)
  {
    var linkText := EchoLinks(links);
    var css := EchoRules(rendered);
    html := linkText + StyleOpen + css + StyleClose;
    if !IsEmpty(typekit) {
      html := html + TypekitTag(typekit);
    }
  }

  /**
    One of the two blocks of `add` that expand a setting: `true` becomes the
    default list, a list has its bare names resolved (`None` is the "not
    registered" error), anything else is kept.
   */
  method ExpandSetting(a: Args, key: string, defaults: seq<Choice>) returns (r: Option<Args>)
    ensures r == ExpandKey(a, key, defaults)
  {
    r := Some(a);
    var current := Lookup(a, key);
    if current == Some(Flag(true)) {
      r := Some(Put(a, key, List(AsEntries(defaults))));
    } else if current.Some? && current.value.List? {
      var resolved := ResolveChoices(current.value.entries, defaults);
      if resolved.None? {
        return None;
      }
      r := Some(Put(a, key, List(resolved.value)));
    }
  }

  class FontManager {
    /** The registered sections, keyed by sanitized id, in registration order. */
    var fcl: Assoc<Section>
    var sectionPriority: int
    var typekit: string

    ghost predicate Valid()
      reads this
    {
      && UniqueKeys(fcl)
      && forall p :: p in fcl ==> p.0 == p.1.id && WellFormed(p.1)
    }

    /** `new FontManager($args)`: only the priority is configurable, 40 by default. */
    constructor (priority: Option<int>)
      ensures Valid()
      ensures fcl == [] && typekit == ""
      ensures sectionPriority == (if priority.Some? then priority.value else 40)
    {
      fcl := [];
      typekit := "";
      sectionPriority := if priority.Some? then priority.value else 40;
    }

    /** `add($id, $element, $title, $description, $args)`; `Ok(true)` is PHP's `true`. */
    method Add(id: string, element: string, title: string, description: string, args: Args)
      returns (r: Result<bool, AddError>)
      requires Valid()
      modifies this
      ensures Valid()
      ensures typekit == old(typekit) && sectionPriority == old(sectionPriority)
      ensures match AddSpec(id, element, title, description, args)
              case Err(e) => r == Err(e) && fcl == old(fcl)
              case Ok(s) => r == Ok(true) && fcl == Put(old(fcl), s.id, s)
    {
      if IsEmpty(id) {
        return Err(NoId);
      }
      if IsEmpty(element) {
        return Err(NoElement);
      }
      if IsEmpty(title) {
        return Err(NoName);
      }
      var key := SanitizeKey(id);
      var merged := ParseArgs(args, DefaultArgs);
      var withFonts := ExpandSetting(merged, FontFamily, DefaultFonts);
      if withFonts.None? {
        return Err(FontNotRegistered);
      }
      var withWeights := ExpandSetting(withFonts.value, FontWeight, DefaultWeights);
      if withWeights.None? {
        return Err(FontWeightNotRegistered);
      }
      var section := Section(key, element, title, description, withWeights.value);
      AddStoresWellFormed(id, element, title, description, args);
      fcl := Put(fcl, key, section);
      r := Ok(true);
    }

    /** `add_typekit($url)`: sets the URL and returns true. */
    method AddTypekit(url: string) returns (ok: bool)
      requires Valid()
      modifies this
      ensures Valid()
      ensures ok && typekit == url
      ensures fcl == old(fcl) && sectionPriority == old(sectionPriority)
    {
      typekit := url;
      ok := true;
    }

    /** `output()`: the text it echoes. It changes nothing. */
    method Output(themeMods: map<string, string>) returns (html: string)
      ensures html == Markup(fcl, typekit, themeMods)
    {
      if |fcl| == 0 {
        return "";
      }
      var acc := Start;
      var i := 0;
      while i < |fcl|
        invariant i <= |fcl|
        invariant SectionsFrom(acc, fcl[i..], themeMods) == SectionsFrom(Start, fcl, themeMods)
      {
        assert fcl[i..][1..] == fcl[i + 1..];
        acc := RenderSection(acc, fcl[i].0, fcl[i].1.element, fcl[i].1.args, themeMods);
        i := i + 1;
      }
      if |acc.rendered| == 0 {
        return "";
      }
      html := Echo(Unique(acc.links), acc.rendered, typekit);
    }
  }
}

=== FILE: php.dfy ===
/**
  The few PHP value semantics the font manager relies on: optional values,
  PHP's `empty()` on strings, string-keyed ordered arrays and `array_unique`.
 */
module Php {

  datatype Option<+T> = None | Some(value: T)

  datatype Result<+R, +E> = Ok(value: R) | Err(error: E)

  /** `empty($s)` and `! $s` for a string: only "" and "0" are falsy. */
  predicate IsEmpty(s: string) {
    s == "" || s == "0"
  }

  predicate Distinct<T(==)>(s: seq<T>) {
    forall i, j :: 0 <= i < j < |s| ==> s[i] != s[j]
  }

  /** Position of the first occurrence of `x` in `s`, or `|s|` when there is none. */
  function FirstIndex<T(==)>(s: seq<T>, x: T): (i: nat)
    ensures i <= |s|
    ensures i < |s| ==> s[i] == x
    ensures forall j :: 0 <= j < i ==> s[j] != x
    ensures i == |s| <==> x !in s
  {
    if s == [] then 0
    else if s[0] == x then 0
    else 1 + FirstIndex(s[1..], x)
  }

  lemma {:induction false} FirstIndexAppend<T>(s: seq<T>, y: T, x: T)
    requires x in s
    ensures FirstIndex(s + [y], x) == FirstIndex(s, x)
  {
    var i := FirstIndex(s, x);
    var k := FirstIndex(s + [y], x);
    assert (s + [y])[i] == x;
    assert k <= i;
    assert k < |s| && s[k] == x;
  }

  /*
    A PHP array with string keys: its entries in iteration order.
    Reading `$a[$k]` sees the first entry for `$k`; a real PHP array never
    holds two, and `Put` keeps it that way.
   */
  type Assoc<V> = seq<(string, V)>

  function Keys<V>(m: Assoc<V>): (ks: seq<string>)
    ensures |ks| == |m|
  {
    seq(|m|, i requires 0 <= i < |m| => m[i].0)
  }

  predicate UniqueKeys<V>(m: Assoc<V>) {
    Distinct(Keys(m))
  }

  /** `$a[$k]` when set. */
  function Lookup<V>(m: Assoc<V>, k: string): (r: Option<V>)
    ensures r.Some? <==> k in Keys(m)
    ensures r.Some? ==> (k, r.value) in m
  {
    var i := FirstIndex(Keys(m), k);
    if i < |m| then Some(m[i].1) else None
  }

  /** `$a[$k] = $v`: an existing key keeps its position, a new key goes last. */
  function Put<V>(m: Assoc<V>, k: string, v: V): (r: Assoc<V>)
    ensures Lookup(r, k) == Some(v)
    ensures forall k' :: k' != k ==> Lookup(r, k') == Lookup(m, k')
    ensures k in Keys(m) ==> Keys(r) == Keys(m)
    ensures k !in Keys(m) ==> Keys(r) == Keys(m) + [k]
    ensures UniqueKeys(m) ==> UniqueKeys(r)
    ensures forall p :: p in r ==> p in m || p == (k, v)
    ensures Lookup(m, k) == Some(v) ==> r == m
  {
    var i := FirstIndex(Keys(m), k);
    var r := if i < |m| then m[i := (k, v)] else m + [(k, v)];
    PutOthers(m, k, v, i, r);
    r
  }

  /** The keys and lookups of the array `Put` builds. */
  lemma PutOthers<V>(m: Assoc<V>, k: string, v: V, i: nat, r: Assoc<V>)
    requires i == FirstIndex(Keys(m), k)
    requires r == if i < |m| then m[i := (k, v)] else m + [(k, v)]
    ensures Keys(r) == (if i < |m| then Keys(m) else Keys(m) + [k])
    ensures FirstIndex(Keys(r), k) == i
    ensures forall k' :: k' != k ==> Lookup(r, k') == Lookup(m, k')
  {
    assert Keys(r) == (if i < |m| then Keys(m) else Keys(m) + [k]);
    forall k' | k' != k
      ensures Lookup(r, k') == Lookup(m, k')
    {
      if k' in Keys(m) && i == |m| {
        FirstIndexAppend(Keys(m), k, k');
      }
    }
  }

  /** Assigning a new key appends it. */
  lemma PutNew<V>(m: Assoc<V>, k: string, v: V)
    requires k !in Keys(m)
    ensures Put(m, k, v) == m + [(k, v)]
  {
    assert FirstIndex(Keys(m), k) == |m|;
  }

  /** Assigning the first key overwrites it in place. */
  lemma PutFirst<V>(m: Assoc<V>, k: string, v: V)
    requires m != [] && m[0].0 == k
    ensures Put(m, k, v) == m[0 := (k, v)]
  {
    assert Keys(m)[0] == k;
  }

  /** Assigns every entry of `updates` over `m`, in order; a later duplicate wins. */
  function PutAll<V>(m: Assoc<V>, updates: Assoc<V>): (r: Assoc<V>)
    decreases |updates|
  {
    if updates == [] then m
    else PutAll(Put(m, updates[0].0, updates[0].1), updates[1..])
  }

  /** Assigning over `m` keeps its keys first, in their order. */
  lemma {:induction false} PutAllPrefix<V>(m: Assoc<V>, updates: Assoc<V>)
    ensures |PutAll(m, updates)| >= |m|
    ensures Keys(PutAll(m, updates))[..|m|] == Keys(m)
    decreases |updates|
  {
    if updates != [] {
      var m' := Put(m, updates[0].0, updates[0].1);
      var r := PutAll(m', updates[1..]);
      PutAllPrefix(m', updates[1..]);
      assert Keys(m')[..|m|] == Keys(m);
      assert Keys(r)[..|m|] == Keys(r)[..|m'|][..|m|];
    }
  }

  /** The keys after assigning are the old keys and the assigned ones, each once. */
  lemma {:induction false} PutAllKeys<V>(m: Assoc<V>, updates: Assoc<V>)
    ensures forall k :: k in Keys(PutAll(m, updates)) <==> k in Keys(m) || k in Keys(updates)
    ensures UniqueKeys(m) ==> UniqueKeys(PutAll(m, updates))
    decreases |updates|
  {
    if updates != [] {
      var m' := Put(m, updates[0].0, updates[0].1);
      PutAllKeys(m', updates[1..]);
      KeysTail(updates);
    }
  }

  lemma KeysTail<V>(u: Assoc<V>)
    requires u != []
    ensures Keys(u)[1..] == Keys(u[1..])
    ensures Keys(u) == [u[0].0] + Keys(u[1..])
  {
    assert Keys(u)[1..] == Keys(u[1..]);
  }

  lemma LookupTail<V>(u: Assoc<V>, k: string)
    requires u != []
    ensures Keys(u) == [u[0].0] + Keys(u[1..])
    ensures k != u[0].0 ==> Lookup(u, k) == Lookup(u[1..], k)
    ensures UniqueKeys(u) ==> UniqueKeys(u[1..]) && u[0].0 !in Keys(u[1..])
  {
    KeysTail(u);
    if UniqueKeys(u) {
      assert forall t :: 0 <= t < |u| - 1 ==> Keys(u[1..])[t] == Keys(u)[t + 1] != Keys(u)[0];
    }
    if k != u[0].0 {
      assert FirstIndex(Keys(u), k) == 1 + FirstIndex(Keys(u)[1..], k);
    }
  }

  /** `wp_parse_args`-style merging: an assigned key reads its assigned value, any other its old one. */
  lemma {:induction false} PutAllLookup<V>(m: Assoc<V>, updates: Assoc<V>, k: string)
    requires UniqueKeys(updates)
    ensures Lookup(PutAll(m, updates), k) ==
            (if k in Keys(updates) then Lookup(updates, k) else Lookup(m, k))
    decreases |updates|
  {
    if updates != [] {
      var m' := Put(m, updates[0].0, updates[0].1);
      LookupTail(updates, k);
      PutAllLookup(m', updates[1..], k);
    }
  }

  /**
    `array_unique` followed by iteration: the first occurrence of every value,
    in the order of those first occurrences.
   */
  function Unique(s: seq<string>): (r: seq<string>)
    ensures Distinct(r)
    ensures forall x :: x in r <==> x in s
    ensures forall i, j :: 0 <= i < j < |r| ==> FirstIndex(s, r[i]) < FirstIndex(s, r[j])
  {
    if s == [] then []
    else
      var init := s[..|s| - 1];
      var last := s[|s| - 1];
      assert s == init + [last];
      var p := Unique(init);
      forall x | x in init
        ensures FirstIndex(s, x) == FirstIndex(init, x) < |init|
      {
        FirstIndexAppend(init, last, x);
      }
      if last in p then p
      else
        assert FirstIndex(s, last) == |init|;
        p + [last]
  }
}

=== FILE: registry.dfy ===
/**
  The values `FontManager::add` works on and a function stating what one
  call computes: the validation, the key sanitising, the merge over the
  default arguments and the expansion and name resolution of the font and
  weight lists. The filter hooks are the identity, so the default lists are
  the built-in ones.
 */
module Registry {
  import opened Php
  import opened WordPress

  /** The `src` key of a record: missing (read as `null`), `false`, or a stylesheet URL. */
  datatype Src = Absent | False | Url(url: string)

  /** One selectable font or weight. */
  datatype Choice = Choice(id: string, name: string, value: string, src: Src)

  /** An item of a choice list as the caller may give it: a bare name or a full record. */
  datatype Entry = Bare(name: string) | Full(choice: Choice)

  /** The value stored under one key of a section's arguments. */
  datatype Arg = Flag(on: bool) | List(entries: seq<Entry>)

  type Args = Assoc<Arg>

  /** One registered customizer section, as stored in `$this->fcl`. */
  datatype Section = Section(id: string, element: string, title: string, description: string, args: Args)

  /** The `WP_Error` codes `add` returns. */
  datatype AddError = NoId | NoElement | NoName | FontNotRegistered | FontWeightNotRegistered

  const FontSize: string := "font-size"
  const FontWeight: string := "font-weight"
  const FontFamily: string := "font-family"
  const LineHeight: string := "line-height"

  /** Every property is enabled unless the caller says otherwise. */
  const DefaultArgs: Args :=
    [(FontSize, Flag(true)), (FontWeight, Flag(true)), (FontFamily, Flag(true)), (LineHeight, Flag(true))]

  const DefaultFonts: seq<Choice> := [
    Choice("open-sans", "Open Sans", "\"Open Sans\"", Url("https://fonts.googleapis.com/css?family=Open+Sans")),
    Choice("roboto", "Roboto", "\"Roboto\"", Url("https://fonts.googleapis.com/css?family=Roboto")),
    Choice("helvetica", "Helvetica", "Helvetica", False)
  ]

  const DefaultWeights: seq<Choice> := [
    Choice("normal", "Normal 400", "normal", Absent),
    Choice("bold", "Bold 600", "bold", Absent)
  ]

  function AsEntries(cs: seq<Choice>): (es: seq<Entry>)
    ensures |es| == |cs|
    ensures forall i :: 0 <= i < |cs| ==> es[i] == Full(cs[i])
  {
    seq(|cs|, i requires 0 <= i < |cs| => Full(cs[i]))
  }

  predicate DistinctNames(ds: seq<Choice>) {
    forall i, j :: 0 <= i < j < |ds| ==> ds[i].name != ds[j].name
  }

  predicate AllFull(es: seq<Entry>) {
    forall i :: 0 <= i < |es| ==> es[i].Full?
  }

  /**
    The inner loop over the default list for one bare `name`: `cur` is the
    list item being rewritten. A default with that name replaces it, and the
    "not registered" test runs after every default, so it fails as soon as
    the first default does not carry the name. `None` is that error.
   */
  function ScanDefaults(cur: Entry, name: string, defaults: seq<Choice>): (r: Option<Entry>)
    ensures defaults != [] && r.Some? ==> r.value.Full?
    ensures r.Some? ==> r.value == cur || (r.value.Full? && r.value.choice in defaults && r.value.choice.name == name)
    decreases |defaults|
  {
    if defaults == [] then Some(cur)
    else
      var next := if defaults[0].name == name then Full(defaults[0]) else cur;
      if next.Bare? then None else ScanDefaults(next, name, defaults[1..])
  }

  /** The outer loop: every bare name of the list is resolved in place; `None` on the first failure. */
  function ResolveEntries(es: seq<Entry>, defaults: seq<Choice>): (r: Option<seq<Entry>>)
    ensures r.Some? ==> |r.value| == |es|
    ensures r.Some? && defaults != [] ==> AllFull(r.value)
  {
    if es == [] then Some([])
    else
      var head := if es[0].Bare? then ScanDefaults(es[0], es[0].name, defaults) else Some(es[0]);
      var tail := ResolveEntries(es[1..], defaults);
      if head.None? || tail.None? then None else Some([head.value] + tail.value)
  }

  /** `true` becomes the default list, a list has its bare names resolved, `false` stays. */
  function Expand(a: Arg, defaults: seq<Choice>): (r: Option<Arg>)
    ensures a.Flag? ==> r.Some?
    ensures r.Some? && defaults != [] ==> r.value == Flag(false) || (r.value.List? && AllFull(r.value.entries))
    ensures a.List? && r.Some? ==> r.value.List? && |r.value.entries| == |a.entries|
  {
    match a
    case Flag(on) => Some(if on then List(AsEntries(defaults)) else a)
    case List(es) =>
      var r := ResolveEntries(es, defaults);
      if r.None? then None else Some(List(r.value))
  }

  /** Expands the value under `key`, if the key is set at all. */
  function ExpandKey(args: Args, key: string, defaults: seq<Choice>): (r: Option<Args>)
    ensures key !in Keys(args) ==> r == Some(args)
    ensures r.Some? ==> Keys(r.value) == Keys(args)
    ensures r.Some? ==> forall k :: k != key ==> Lookup(r.value, k) == Lookup(args, k)
  {
    match Lookup(args, key)
    case None => Some(args)
    case Some(a) =>
      var e := Expand(a, defaults);
      if e.None? then None else Some(Put(args, key, e.value))
  }

  /** `$args` once merged over the defaults and expanded: the error, or the arguments `add` stores. */
  function ExpandedArgs(args: Args): (r: Result<Args, AddError>)
    ensures r.Err? ==> r.error == FontNotRegistered || r.error == FontWeightNotRegistered
    ensures r.Ok? ==> |r.value| >= |DefaultArgs|
  {
    PutAllPrefix(DefaultArgs, args);
    var merged := ParseArgs(args, DefaultArgs);
    var withFonts := ExpandKey(merged, FontFamily, DefaultFonts);
    if withFonts.None? then Err(FontNotRegistered)
    else
      var withWeights := ExpandKey(withFonts.value, FontWeight, DefaultWeights);
      if withWeights.None? then Err(FontWeightNotRegistered)
      else Ok(withWeights.value)
  }

  /** What one call of `add` computes: the error, or the section it stores. */
  function AddSpec(id: string, element: string, title: string, description: string, args: Args)
    : (r: Result<Section, AddError>)
    ensures r.Ok? ==> !IsEmpty(id) && !IsEmpty(element) && !IsEmpty(title)
    ensures r.Ok? ==> IsKey(r.value.id) && r.value.element == element && r.value.title == title
                      && r.value.description == description
  {
    if IsEmpty(id) then Err(NoId)
    else if IsEmpty(element) then Err(NoElement)
    else if IsEmpty(title) then Err(NoName)
    else
      match ExpandedArgs(args)
      case Err(e) => Err(e)
      case Ok(stored) => Ok(Section(SanitizeKey(id), element, title, description, stored))
  }

  /** A font or weight setting after `add`: `false`, or a list of full records. */
  predicate Settled(a: Option<Arg>) {
    a == Some(Flag(false)) || (a.Some? && a.value.List? && AllFull(a.value.entries))
  }

  /** The shape of every section `add` stores. */
  predicate WellFormed(s: Section) {
    && IsKey(s.id)
    && UniqueKeys(s.args)
    && |s.args| >= |DefaultArgs|
    && Keys(s.args)[..|DefaultArgs|] == Keys(DefaultArgs)
    && Settled(Lookup(s.args, FontFamily))
    && Settled(Lookup(s.args, FontWeight))
  }

  // ---------------------------------------------------------------------
  // Name resolution

  lemma {:induction false} ScanFromFull(c: Choice, name: string, defaults: seq<Choice>)
    ensures var r := ScanDefaults(Full(c), name, defaults);
            r.Some? && r.value.Full? &&
            (r.value == Full(c) || (r.value.choice in defaults && r.value.choice.name == name))
    ensures (forall d :: d in defaults ==> d.name != name) ==> ScanDefaults(Full(c), name, defaults) == Some(Full(c))
    decreases |defaults|
  {
    if defaults != [] {
      var next := if defaults[0].name == name then Full(defaults[0]) else Full(c);
      ScanFromFull(next.choice, name, defaults[1..]);
    }
  }

  /**
    A bare name resolves exactly when it is the name of the FIRST default;
    the record it resolves to is a default carrying that name, and with
    distinct default names it is the first default itself.
   */
  lemma ScanFirstOnly(name: string, defaults: seq<Choice>)
    requires |defaults| > 0
    ensures var r := ScanDefaults(Bare(name), name, defaults);
            (r.Some? <==> defaults[0].name == name) &&
            (r.Some? ==> r.value.Full? && r.value.choice in defaults && r.value.choice.name == name) &&
            (r.Some? && DistinctNames(defaults) ==> r.value == Full(defaults[0]))
  {
    if defaults[0].name == name {
      ScanFromFull(defaults[0], name, defaults[1..]);
      if DistinctNames(defaults) {
        assert forall d :: d in defaults[1..] ==> d.name != name by {
          forall d | d in defaults[1..] ensures d.name != name {
            var j :| 0 <= j < |defaults[1..]| && defaults[1..][j] == d;
            assert defaults[j + 1] == d;
          }
        }
      }
    }
  }

  /**
    A caller list resolves exactly when each of its bare names is the first
    default's name; then full records stay as they are and every bare name
    becomes a full record of the default list carrying that name (the first
    default when names are distinct).
   */
  lemma {:induction false} ResolveEntriesSpec(es: seq<Entry>, defaults: seq<Choice>)
    requires |defaults| > 0
    ensures var r := ResolveEntries(es, defaults);
            (r.Some? <==> forall i :: 0 <= i < |es| && es[i].Bare? ==> es[i].name == defaults[0].name) &&
            (r.Some? ==> |r.value| == |es| && AllFull(r.value)) &&
            (r.Some? ==> forall i :: 0 <= i < |es| && es[i].Full? ==> r.value[i] == es[i]) &&
            (r.Some? ==> forall i :: 0 <= i < |es| && es[i].Bare? ==>
               r.value[i].choice in defaults && r.value[i].choice.name == es[i].name) &&
            (r.Some? && DistinctNames(defaults) ==> forall i :: 0 <= i < |es| && es[i].Bare? ==>
               r.value[i] == Full(defaults[0]))
  {
    if es != [] {
      assert forall i :: 0 <= i < |es| - 1 ==> es[1..][i] == es[i + 1];
      ResolveEntriesSpec(es[1..], defaults);
      if es[0].Bare? {
        ScanFirstOnly(es[0].name, defaults);
      }
      var r := ResolveEntries(es, defaults);
      if r.Some? {
        var t := ResolveEntries(es[1..], defaults).value;
        assert forall i :: 1 <= i < |es| ==> r.value[i] == t[i - 1] && es[i] == es[1..][i - 1];
      }
    }
  }

  lemma DefaultListsHaveDistinctNames()
    ensures DistinctNames(DefaultFonts) && DistinctNames(DefaultWeights)
  {
  }

  // ---------------------------------------------------------------------
  // Properties of one `add` call

  /** The three required fields are checked in order: id, element, title. */
  lemma AddValidation(id: string, element: string, title: string, description: string, args: Args)
    ensures AddSpec(id, element, title, description, args) == Err(NoId) <==> IsEmpty(id)
    ensures !IsEmpty(id) ==>
              (AddSpec(id, element, title, description, args) == Err(NoElement) <==> IsEmpty(element))
    ensures !IsEmpty(id) && !IsEmpty(element) ==>
              (AddSpec(id, element, title, description, args) == Err(NoName) <==> IsEmpty(title))
  {
  }

  lemma DefaultArgKeys()
    ensures Keys(DefaultArgs) == [FontSize, FontWeight, FontFamily, LineHeight]
    ensures UniqueKeys(DefaultArgs)
    ensures forall k :: k in Keys(DefaultArgs) ==> Lookup(DefaultArgs, k) == Some(Flag(true))
  {
    assert Keys(DefaultArgs) == [FontSize, FontWeight, FontFamily, LineHeight];
  }

  /** The merged arguments: the four property keys first, in order, each once. */
  lemma MergedShape(args: Args)
    ensures var merged := ParseArgs(args, DefaultArgs);
            UniqueKeys(merged) && |merged| >= |DefaultArgs| &&
            Keys(merged)[..|DefaultArgs|] == Keys(DefaultArgs) &&
            FontFamily in Keys(merged) && FontWeight in Keys(merged)
  {
    var merged := ParseArgs(args, DefaultArgs);
    DefaultArgKeys();
    PutAllPrefix(DefaultArgs, args);
    PutAllKeys(DefaultArgs, args);
    assert Keys(merged)[..4][2] == FontFamily && Keys(merged)[..4][1] == FontWeight;
  }

  lemma ExpandKeySettles(args: Args, key: string, defaults: seq<Choice>)
    requires |defaults| > 0
    requires UniqueKeys(args) && key in Keys(args)
    ensures var r := ExpandKey(args, key, defaults);
            && (r.None? <==> Expand(Lookup(args, key).value, defaults).None?)
            && (r.Some? ==> UniqueKeys(r.value) && Keys(r.value) == Keys(args))
            && (r.Some? ==> Lookup(r.value, key) == Expand(Lookup(args, key).value, defaults))
            && (r.Some? ==> Settled(Lookup(r.value, key)))
            && (r.Some? ==> forall k :: k != key ==> Lookup(r.value, k) == Lookup(args, k))
  {
    var a := Lookup(args, key).value;
    if a.List? {
      ResolveEntriesSpec(a.entries, defaults);
    }
  }

  /** `true` expands to the whole default list and `false` stays `false`. */
  lemma ExpandFlags(defaults: seq<Choice>)
    ensures Expand(Flag(true), defaults) == Some(List(AsEntries(defaults)))
    ensures Expand(Flag(false), defaults) == Some(Flag(false))
  {
  }

  /**
    A caller list fails to expand exactly when one of its bare names is not
    the first default's name; otherwise full records stay and, with distinct
    default names, each bare name becomes the first default's record.
   */
  lemma ExpandList(es: seq<Entry>, defaults: seq<Choice>)
    requires |defaults| > 0 && DistinctNames(defaults)
    ensures var r := Expand(List(es), defaults);
            && (r.None? <==> exists i :: 0 <= i < |es| && es[i].Bare? && es[i].name != defaults[0].name)
            && (r.Some? ==> r.value.List? && |r.value.entries| == |es|)
            && (r.Some? ==> forall i :: 0 <= i < |es| ==>
                  r.value.entries[i] == (if es[i].Bare? then Full(defaults[0]) else es[i]))
  {
    ResolveEntriesSpec(es, defaults);
  }

  /** The stored font setting is the caller's (or `true` when omitted), expanded. */
  lemma StoredFonts(args: Args)
    requires UniqueKeys(args)
    ensures var given := if FontFamily in Keys(args) then Lookup(args, FontFamily).value else Flag(true);
            var r := ExpandedArgs(args);
            && (r == Err(FontNotRegistered) <==> Expand(given, DefaultFonts).None?)
            && (r.Ok? ==> Lookup(r.value, FontFamily) == Expand(given, DefaultFonts))
  {
    DefaultArgKeys();
    MergedShape(args);
    ParseArgsSpec(args, DefaultArgs, FontFamily);
    var merged := ParseArgs(args, DefaultArgs);
    ExpandKeySettles(merged, FontFamily, DefaultFonts);
    var withFonts := ExpandKey(merged, FontFamily, DefaultFonts);
    if withFonts.Some? {
      ExpandKeySettles(withFonts.value, FontWeight, DefaultWeights);
    }
  }

  /** The stored weight setting is the caller's (or `true` when omitted), expanded, once the fonts expanded. */
  lemma StoredWeights(args: Args)
    requires UniqueKeys(args)
    requires ExpandedArgs(args) != Err(FontNotRegistered)
    ensures var given := if FontWeight in Keys(args) then Lookup(args, FontWeight).value else Flag(true);
            var r := ExpandedArgs(args);
            && (r == Err(FontWeightNotRegistered) <==> Expand(given, DefaultWeights).None?)
            && (r.Ok? ==> Lookup(r.value, FontWeight) == Expand(given, DefaultWeights))
  {
    DefaultArgKeys();
    MergedShape(args);
    ParseArgsSpec(args, DefaultArgs, FontWeight);
    var merged := ParseArgs(args, DefaultArgs);
    ExpandKeySettles(merged, FontFamily, DefaultFonts);
    var withFonts := ExpandKey(merged, FontFamily, DefaultFonts).value;
    ExpandKeySettles(withFonts, FontWeight, DefaultWeights);
  }

  /**
    Every key other than fonts and weights keeps the caller's value, and a
    property key the caller omits is `true`.
   */
  lemma StoredOtherKeys(args: Args, k: string)
    requires UniqueKeys(args)
    requires ExpandedArgs(args).Ok?
    requires k != FontFamily && k != FontWeight
    ensures Lookup(ExpandedArgs(args).value, k) ==
            (if k in Keys(args) then Lookup(args, k) else Lookup(DefaultArgs, k))
    ensures k in Keys(DefaultArgs) && k !in Keys(args) ==> Lookup(ExpandedArgs(args).value, k) == Some(Flag(true))
  {
    DefaultArgKeys();
    MergedShape(args);
    ParseArgsSpec(args, DefaultArgs, k);
    var merged := ParseArgs(args, DefaultArgs);
    ExpandKeySettles(merged, FontFamily, DefaultFonts);
    var withFonts := ExpandKey(merged, FontFamily, DefaultFonts).value;
    ExpandKeySettles(withFonts, FontWeight, DefaultWeights);
  }

  /** The expanded arguments have the shape `WellFormed` asks of a section's `args`. */
  lemma ExpandedShape(args: Args)
    requires ExpandedArgs(args).Ok?
    ensures var stored := ExpandedArgs(args).value;
            && UniqueKeys(stored)
            && |stored| >= |DefaultArgs|
            && Keys(stored)[..|DefaultArgs|] == Keys(DefaultArgs)
            && Settled(Lookup(stored, FontFamily))
            && Settled(Lookup(stored, FontWeight))
  {
    var merged := ParseArgs(args, DefaultArgs);
    MergedShape(args);
    ExpandKeySettles(merged, FontFamily, DefaultFonts);
    var withFonts := ExpandKey(merged, FontFamily, DefaultFonts).value;
    ExpandKeySettles(withFonts, FontWeight, DefaultWeights);
  }

  /**
    A stored section is keyed by the sanitized id, keeps the element, title
    and description, lists the four property keys first in their default
    order, and holds only `false` or full-record lists for fonts and weights.
   */
  lemma AddStoresWellFormed(id: string, element: string, title: string, description: string, args: Args)
    requires AddSpec(id, element, title, description, args).Ok?
    ensures var s := AddSpec(id, element, title, description, args).value;
            s.id == SanitizeKey(id) && s.element == element && s.title == title &&
            s.description == description && WellFormed(s)
  {
    ExpandedShape(args);
  }
}

=== FILE: renderer.dfy ===
/**
  What `FontManager::output` prints, as functions of the registered sections,
  the Typekit URL and the stored theme mods. The variables the source keeps
  from one property (and one section) to the next without resetting them --
  `$style`, `$fallback_style` and `$setting` -- are carried explicitly, so
  the stale values the source writes are part of the result.
 */
module Renderer {
  import opened Php
  import opened Registry

  /** `$style`, `$fallback_style` and `$setting` between steps; an undefined variable reads as "" or `None`. */
  datatype Carry = Carry(style: string, fallback: string, setting: Option<Choice>)

  /** One CSS rule body: property to value, in first-write order. */
  type Decls = Assoc<string>

  /** `$rendered`: element to its declarations, in first-write order. */
  type Rules = Assoc<Decls>

  /** Everything the render loop has built so far. */
  datatype Acc = Acc(carry: Carry, rendered: Rules, links: seq<string>)

  const Start: Acc := Acc(Carry("", "", None), [], [])

  /** `get_theme_mod($key)`: the stored value, or "" (PHP `false`) when unset. */
  function Mod(mods: map<string, string>, key: string): string {
    if key in mods then mods[key] else ""
  }

  function Ids(list: seq<Choice>): (ids: seq<string>)
    ensures |ids| == |list|
    ensures forall i :: 0 <= i < |list| ==> ids[i] == list[i].id
  {
    seq(|list|, i requires 0 <= i < |list| => list[i].id)
  }

  /** The records a `foreach` over the setting visits: none for a boolean. */
  function Iterated(a: Arg): (cs: seq<Choice>)
    ensures forall c :: c in cs ==> a.List? && Full(c) in a.entries
    ensures a.Flag? ==> cs == []
    ensures a.List? && AllFull(a.entries) ==>
              |cs| == |a.entries| && forall i :: 0 <= i < |cs| ==> cs[i] == a.entries[i].choice
  {
    match a
    case Flag(_) => []
    case List(es) => FullChoices(es)
  }

  /** The full records of a list, in order (after `add` a list holds nothing else). */
  function FullChoices(es: seq<Entry>): (cs: seq<Choice>)
    ensures |cs| <= |es|
    ensures forall c :: c in cs ==> Full(c) in es
    ensures AllFull(es) ==> |cs| == |es| && forall i :: 0 <= i < |cs| ==> cs[i] == es[i].choice
  {
    if es == [] then []
    else (if es[0].Full? then [es[0].choice] else []) + FullChoices(es[1..])
  }

  /**
    `$setting` after a `foreach` over `list` that stopped at index `k`
    (`k == |list|` when no record matched): the matched record, else the last
    one visited, else whatever it held before.
   */
  function AfterScan(list: seq<Choice>, k: nat, setting: Option<Choice>): (r: Option<Choice>)
    ensures list != [] ==> r.Some? && r.value in list
    ensures list == [] ==> r == setting
  {
    if k < |list| then Some(list[k])
    else if list == [] then setting
    else Some(list[|list| - 1])
  }

  /**
    What `if (false !== $setting['src']) $font_links[] = $setting['src'];`
    queues: nothing for a record whose `src` is false, and the empty string
    (a null `src`) for a record without a `src` key -- the built-in weights --
    and while `$setting` has never been assigned.
   */
  function Queued(setting: Option<Choice>): (links: seq<string>)
    ensures |links| <= 1
    ensures links == [] <==> setting.Some? && setting.value.src == False
    ensures forall l :: l in links ==> l == "" || (setting.Some? && setting.value.src == Url(l))
    ensures setting.Some? && setting.value.src.Url? ==> links == [setting.value.src.url]
    ensures setting.None? || setting.value.src.Absent? ==> links == [""]
  {
    match setting
    case None => [""]
    case Some(c) =>
      match c.src
      case Absent => [""]
      case False => []
      case Url(u) => [u]
  }

  /** The `font-weight` case: the stored id, replaced by the value of the record with that id. */
  function WeightStep(c: Carry, stored: string, list: seq<Choice>): (r: Carry)
    ensures r.style == stored || exists i :: 0 <= i < |list| && list[i].id == stored && r.style == list[i].value
    ensures !IsEmpty(stored) ==>
              forall i :: 0 <= i < |list| && list[i].id == stored && (forall j :: 0 <= j < i ==> list[j].id != stored) ==>
                r.style == list[i].value && r.setting == Some(list[i])
    ensures (forall i :: 0 <= i < |list| ==> list[i].id != stored) ==> r.style == stored
    ensures IsEmpty(stored) ==> r == c.(style := stored)
    ensures !IsEmpty(stored) && stored !in Ids(list) ==>
              r.setting == (if list == [] then c.setting else Some(list[|list| - 1]))
    ensures r.fallback == c.fallback
    ensures r.setting == c.setting || (r.setting.Some? && r.setting.value in list)
  {
    if IsEmpty(stored) then c.(style := stored)
    else
      var k := FirstIndex(Ids(list), stored);
      c.(style := if k < |list| then list[k].value else stored,
         setting := AfterScan(list, k, c.setting))
  }

  /** The `font-family` case: the new carried variables and the links it queues. */
  function FamilyStep(c: Carry, primary: string, fallbackId: string, list: seq<Choice>): (r: (Carry, seq<string>))
    ensures |r.1| <= 2
    ensures IsEmpty(primary) ==> r == (c, [])
    ensures IsEmpty(fallbackId) ==> r.0.fallback == c.fallback && |r.1| <= 1
    ensures r.0.setting == c.setting || (r.0.setting.Some? && r.0.setting.value in list)
  {
    if IsEmpty(primary) then (c, [])
    else
      var k := FirstIndex(Ids(list), primary);
      var style := if k < |list| then list[k].value else c.style;
      var setting := AfterScan(list, k, c.setting);
      if IsEmpty(fallbackId) then (c.(style := style, setting := setting), Queued(setting))
      else
        var j := FirstIndex(Ids(list), fallbackId);
        var fallback := if j < |list| then list[j].value else c.fallback;
        var setting' := AfterScan(list, j, setting);
        var style' := if fallback != style then style + "," + fallback else style;
        (Carry(style', fallback, setting'), Queued(setting) + Queued(setting'))
  }

  /** The declarations already recorded for `element`. */
  function DeclsOf(rules: Rules, element: string): Decls {
    match Lookup(rules, element)
    case None => []
    case Some(d) => d
  }

  /** `$rendered[$element][$property] = $style`. */
  function Declare(rules: Rules, element: string, property: string, value: string): (r: Rules)
    ensures Lookup(DeclsOf(r, element), property) == Some(value)
    ensures forall q :: q != property ==> Lookup(DeclsOf(r, element), q) == Lookup(DeclsOf(rules, element), q)
    ensures forall e :: e != element ==> Lookup(r, e) == Lookup(rules, e)
    ensures Keys(r) == if element in Keys(rules) then Keys(rules) else Keys(rules) + [element]
    ensures element in Keys(rules) ==>
              (Keys(DeclsOf(r, element)) ==
                 if property in Keys(DeclsOf(rules, element)) then Keys(DeclsOf(rules, element))
                 else Keys(DeclsOf(rules, element)) + [property])
    ensures element !in Keys(rules) ==> Keys(DeclsOf(r, element)) == [property]
  {
    Put(rules, element, Put(DeclsOf(rules, element), property, value))
  }

  /** The `switch` on the property: the new carried variables and the links it queues. */
  function Switch(c: Carry, sectionId: string, property: string, setting: Arg, mods: map<string, string>)
    : (r: (Carry, seq<string>))
    ensures property != FontFamily ==> r.1 == []
    ensures property != FontWeight && property != FontFamily ==> r.0.setting == c.setting
    ensures property == FontSize || property == LineHeight ==> r.0.fallback == c.fallback
    ensures property !in [FontSize, FontWeight, FontFamily, LineHeight] ==> r.0 == c
  {
    if property == FontSize then (c.(style := Mod(mods, "fcl-font-size-" + sectionId)), [])
    else if property == LineHeight then (c.(style := Mod(mods, "fcl-line-height-" + sectionId)), [])
    else if property == FontWeight then (WeightStep(c, Mod(mods, "fcl-font-weight-" + sectionId), Iterated(setting)), [])
    else if property == FontFamily then
      FamilyStep(c, Mod(mods, "fcl-font-family-" + sectionId), Mod(mods, "fcl-font-family-fallback-" + sectionId),
                 Iterated(setting))
    else (c, [])
  }

  /** One iteration of the loop over a section's arguments: the `switch`, then a non-empty `$style` is declared. */
  function PropertyStep(acc: Acc, sectionId: string, element: string, property: string, setting: Arg,
                        mods: map<string, string>): (r: Acc)
    ensures acc.links <= r.links && |r.links| <= |acc.links| + 2
    ensures Keys(r.rendered) == Keys(acc.rendered) ||
            (element !in Keys(acc.rendered) && Keys(r.rendered) == Keys(acc.rendered) + [element])
    ensures r.rendered != acc.rendered ==> !IsEmpty(r.carry.style)
  {
    var step := Switch(acc.carry, sectionId, property, setting, mods);
    Acc(step.0,
        if IsEmpty(step.0.style) then acc.rendered else Declare(acc.rendered, element, property, step.0.style),
        acc.links + step.1)
  }

  /** The loop over one section's arguments, in their order. */
  function ArgsFrom(acc: Acc, sectionId: string, element: string, args: Args, mods: map<string, string>): (r: Acc)
    ensures acc.links <= r.links && |r.links| <= |acc.links| + 2 * |args|
    ensures Keys(r.rendered) == Keys(acc.rendered) ||
            (element !in Keys(acc.rendered) && Keys(r.rendered) == Keys(acc.rendered) + [element])
    decreases |args|
  {
    if args == [] then acc
    else ArgsFrom(PropertyStep(acc, sectionId, element, args[0].0, args[0].1, mods), sectionId, element, args[1..], mods)
  }

  /** The loop over the sections, in registration order. */
  function SectionsFrom(acc: Acc, fcl: Assoc<Section>, mods: map<string, string>): (r: Acc)
    ensures acc.links <= r.links
    ensures Keys(acc.rendered) <= Keys(r.rendered) && |r.rendered| <= |acc.rendered| + |fcl|
    decreases |fcl|
  {
    if fcl == [] then acc
    else SectionsFrom(ArgsFrom(acc, fcl[0].0, fcl[0].1.element, fcl[0].1.args, mods), fcl[1..], mods)
  }

  /** The tag echoed for one queued source. */
  function LinkTag(src: string): string {
    "<link class=\"fcl-font\" rel=\"stylesheet\" href=\"" + src + "\">"
  }

  /** The link tags, in queue order. */
  function LinkTags(links: seq<string>): (html: string)
    ensures html == "" <==> links == []
  {
    if links == [] then "" else LinkTags(links[..|links| - 1]) + LinkTag(links[|links| - 1])
  }

  /** The body of one rule: `property:value;` per declaration. */
  function DeclsText(decls: Decls): (text: string)
    ensures text == "" <==> decls == []
  {
    if decls == [] then ""
    else
      var d := decls[|decls| - 1];
      DeclsText(decls[..|decls| - 1]) + d.0 + ":" + d.1 + ";"
  }

  function RuleText(element: string, decls: Decls): string {
    element + "{" + DeclsText(decls) + "}"
  }

  /** The rules, in first-write order. */
  function RulesText(rules: Rules): (text: string)
    ensures text == "" <==> rules == []
  {
    if rules == [] then ""
    else RulesText(rules[..|rules| - 1]) + RuleText(rules[|rules| - 1].0, rules[|rules| - 1].1)
  }

  const StyleOpen: string := "<style id=\"fcl\">"
  const StyleClose: string := "</style>"

  function TypekitTag(url: string): (html: string)
    ensures html == "" <==> IsEmpty(url)
  {
    if IsEmpty(url) then ""
    else "<script src=\"" + url + "\"></script><script>try{Typekit.load();}catch(e){}</script>"
  }

  /** The whole text `output` echoes. */
  function Markup(fcl: Assoc<Section>, typekit: string, mods: map<string, string>): string {
    if |fcl| == 0 then ""
    else
      var acc := SectionsFrom(Start, fcl, mods);
      if |acc.rendered| == 0 then ""
      else LinkTags(Unique(acc.links)) + StyleOpen + RulesText(acc.rendered) + StyleClose + TypekitTag(typekit)
  }

  /*
    What the render loop keeps true: one rule per element, one declaration per
    property, no empty value ever declared, every element a registered one,
    every queued source either the empty string or the `src` of a record in
    `pool`, and `$setting` always one of those records.
   */
  ghost predicate Sound(acc: Acc, pool: set<Choice>, elements: set<string>) {
    && UniqueKeys(acc.rendered)
    && (forall p :: p in acc.rendered ==> p.0 in elements && UniqueKeys(p.1))
    && (forall p, d :: p in acc.rendered && d in p.1 ==> !IsEmpty(d.1))
    && SourcedFrom(acc.links, pool)
    && (acc.carry.setting.Some? ==> acc.carry.setting.value in pool)
  }

  /** Every record some argument of `args` lists. */
  ghost function ArgChoices(args: Args): set<Choice> {
    set i, c | 0 <= i < |args| && c in Iterated(args[i].1) :: c
  }

  /** Every record some registered section lists. */
  ghost function RegistryChoices(fcl: Assoc<Section>): set<Choice> {
    set i, c | 0 <= i < |fcl| && c in ArgChoices(fcl[i].1.args) :: c
  }

  ghost function Elements(fcl: Assoc<Section>): set<string> {
    set i | 0 <= i < |fcl| :: fcl[i].1.element
  }

  /** `$setting` after a scan is one of the scanned records or what it held before. */
  lemma AfterScanFrom(list: seq<Choice>, k: nat, setting: Option<Choice>, pool: set<Choice>)
    requires forall c :: c in list ==> c in pool
    requires setting.Some? ==> setting.value in pool
    ensures AfterScan(list, k, setting).Some? ==> AfterScan(list, k, setting).value in pool
  {
  }

  predicate SourcedFrom(links: seq<string>, pool: set<Choice>) {
    forall l :: l in links ==> l == "" || exists c :: c in pool && c.src == Url(l)
  }

  lemma QueuedSourced(setting: Option<Choice>, pool: set<Choice>)
    requires setting.Some? ==> setting.value in pool
    ensures SourcedFrom(Queued(setting), pool)
  {
  }

  lemma WeightStepSound(c: Carry, stored: string, list: seq<Choice>, pool: set<Choice>)
    requires forall x :: x in list ==> x in pool
    requires c.setting.Some? ==> c.setting.value in pool
    ensures WeightStep(c, stored, list).setting.Some? ==> WeightStep(c, stored, list).setting.value in pool
  {
    AfterScanFrom(list, FirstIndex(Ids(list), stored), c.setting, pool);
  }

  lemma FamilyStepSound(c: Carry, primary: string, fallbackId: string, list: seq<Choice>, pool: set<Choice>)
    requires forall x :: x in list ==> x in pool
    requires c.setting.Some? ==> c.setting.value in pool
    ensures FamilyStep(c, primary, fallbackId, list).0.setting.Some? ==>
              FamilyStep(c, primary, fallbackId, list).0.setting.value in pool
    ensures SourcedFrom(FamilyStep(c, primary, fallbackId, list).1, pool)
  {
    if !IsEmpty(primary) {
      var setting := AfterScan(list, FirstIndex(Ids(list), primary), c.setting);
      AfterScanFrom(list, FirstIndex(Ids(list), primary), c.setting, pool);
      QueuedSourced(setting, pool);
      if !IsEmpty(fallbackId) {
        var setting' := AfterScan(list, FirstIndex(Ids(list), fallbackId), setting);
        AfterScanFrom(list, FirstIndex(Ids(list), fallbackId), setting, pool);
        QueuedSourced(setting', pool);
      }
    }
  }

  lemma DeclareSound(acc: Acc, element: string, property: string, value: string, pool: set<Choice>, elements: set<string>)
    requires Sound(acc, pool, elements)
    requires element in elements && !IsEmpty(value)
    ensures Sound(acc.(rendered := Declare(acc.rendered, element, property, value)), pool, elements)
  {
    var old_ := DeclsOf(acc.rendered, element);
    assert UniqueKeys(old_) && forall d :: d in old_ ==> !IsEmpty(d.1);
  }

  lemma SwitchSound(c: Carry, sectionId: string, property: string, setting: Arg, mods: map<string, string>,
                    pool: set<Choice>)
    requires c.setting.Some? ==> c.setting.value in pool
    requires forall x :: x in Iterated(setting) ==> x in pool
    ensures var (next, queued) := Switch(c, sectionId, property, setting, mods);
            (next.setting.Some? ==> next.setting.value in pool) && SourcedFrom(queued, pool)
  {
    var list := Iterated(setting);
    if property == FontFamily {
      FamilyStepSound(c, Mod(mods, "fcl-font-family-" + sectionId), Mod(mods, "fcl-font-family-fallback-" + sectionId),
                      list, pool);
    } else if property == FontWeight {
      WeightStepSound(c, Mod(mods, "fcl-font-weight-" + sectionId), list, pool);
    }
  }

  lemma PropertyStepSound(acc: Acc, sectionId: string, element: string, property: string, setting: Arg,
                          mods: map<string, string>, pool: set<Choice>, elements: set<string>)
    requires Sound(acc, pool, elements)
    requires element in elements
    requires forall c :: c in Iterated(setting) ==> c in pool
    ensures Sound(PropertyStep(acc, sectionId, element, property, setting, mods), pool, elements)
  {
    var step := Switch(acc.carry, sectionId, property, setting, mods);
    SwitchSound(acc.carry, sectionId, property, setting, mods, pool);
    var mid := acc.(carry := step.0, links := acc.links + step.1);
    assert Sound(mid, pool, elements);
    if !IsEmpty(step.0.style) {
      DeclareSound(mid, element, property, step.0.style, pool, elements);
    }
  }

  lemma {:induction false} ArgsFromSound(acc: Acc, sectionId: string, element: string, args: Args,
                                         mods: map<string, string>, pool: set<Choice>, elements: set<string>)
    requires Sound(acc, pool, elements)
    requires element in elements
    requires ArgChoices(args) <= pool
    ensures Sound(ArgsFrom(acc, sectionId, element, args, mods), pool, elements)
    decreases |args|
  {
    if args != [] {
      assert forall c :: c in Iterated(args[0].1) ==> c in ArgChoices(args);
      assert ArgChoices(args[1..]) <= ArgChoices(args) by {
        forall c | c in ArgChoices(args[1..])
          ensures c in ArgChoices(args)
        {
          var i :| 0 <= i < |args[1..]| && c in Iterated(args[1..][i].1);
          assert args[1..][i] == args[i + 1];
        }
      }
      PropertyStepSound(acc, sectionId, element, args[0].0, args[0].1, mods, pool, elements);
      ArgsFromSound(PropertyStep(acc, sectionId, element, args[0].0, args[0].1, mods),
                    sectionId, element, args[1..], mods, pool, elements);
    }
  }

  lemma {:induction false} SectionsFromSound(acc: Acc, fcl: Assoc<Section>, mods: map<string, string>,
                                             pool: set<Choice>, elements: set<string>)
    requires Sound(acc, pool, elements)
    requires RegistryChoices(fcl) <= pool && Elements(fcl) <= elements
    ensures Sound(SectionsFrom(acc, fcl, mods), pool, elements)
    decreases |fcl|
  {
    if fcl != [] {
      assert fcl[0].1.element in Elements(fcl);
      assert ArgChoices(fcl[0].1.args) <= RegistryChoices(fcl);
      assert RegistryChoices(fcl[1..]) <= RegistryChoices(fcl) by {
        forall c | c in RegistryChoices(fcl[1..])
          ensures c in RegistryChoices(fcl)
        {
          var i :| 0 <= i < |fcl[1..]| && c in ArgChoices(fcl[1..][i].1.args);
          assert fcl[1..][i] == fcl[i + 1];
        }
      }
      assert Elements(fcl[1..]) <= Elements(fcl) by {
        forall e | e in Elements(fcl[1..])
          ensures e in Elements(fcl)
        {
          var i :| 0 <= i < |fcl[1..]| && e == fcl[1..][i].1.element;
          assert fcl[1..][i] == fcl[i + 1];
        }
      }
      ArgsFromSound(acc, fcl[0].0, fcl[0].1.element, fcl[0].1.args, mods, pool, elements);
      SectionsFromSound(ArgsFrom(acc, fcl[0].0, fcl[0].1.element, fcl[0].1.args, mods), fcl[1..], mods, pool, elements);
    }
  }

  /**
    What `output` prints is well formed whatever the stored mods are: one
    rule per registered element, each property once with a non-empty value,
    and every linked stylesheet the `src` of a registered record (a record
    whose `src` is false is never linked), each once.
   */
  lemma RenderSound(fcl: Assoc<Section>, mods: map<string, string>)
    ensures Sound(SectionsFrom(Start, fcl, mods), RegistryChoices(fcl), Elements(fcl))
    ensures Distinct(Unique(SectionsFrom(Start, fcl, mods).links))
    ensures SourcedFrom(Unique(SectionsFrom(Start, fcl, mods).links), RegistryChoices(fcl))
  {
    SectionsFromSound(Start, fcl, mods, RegistryChoices(fcl), Elements(fcl));
  }

  /** Nothing is printed for an empty registry, nor when no property was declared. */
  lemma MarkupEmpty(fcl: Assoc<Section>, typekit: string, mods: map<string, string>)
    ensures Markup(fcl, typekit, mods) == "" <==> |fcl| == 0 || |SectionsFrom(Start, fcl, mods).rendered| == 0
  {
    if |fcl| != 0 && |SectionsFrom(Start, fcl, mods).rendered| != 0 {
      var acc := SectionsFrom(Start, fcl, mods);
      var text := LinkTags(Unique(acc.links)) + StyleOpen + RulesText(acc.rendered) + StyleClose + TypekitTag(typekit);
      assert |text| >= |StyleOpen| > 0;
    }
  }

  /**
    Font size and line height are declared from the stored mod whatever the
    section's argument says, `false` included.
   */
  lemma DisabledSizeStillRenders(acc: Acc, sectionId: string, element: string, arg: Arg, mods: map<string, string>)
    requires !IsEmpty(Mod(mods, "fcl-font-size-" + sectionId))
    ensures Lookup(DeclsOf(PropertyStep(acc, sectionId, element, FontSize, arg, mods).rendered, element), FontSize)
            == Some(Mod(mods, "fcl-font-size-" + sectionId))
  {
  }

  /**
    With no font stored for the section, `font-family` is declared with
    whatever `$style` the previous property left, and nothing is queued.
   */
  lemma StaleStyleReused(acc: Acc, sectionId: string, element: string, arg: Arg, mods: map<string, string>)
    requires IsEmpty(Mod(mods, "fcl-font-family-" + sectionId))
    requires !IsEmpty(acc.carry.style)
    ensures PropertyStep(acc, sectionId, element, FontFamily, arg, mods)
            == acc.(rendered := Declare(acc.rendered, element, FontFamily, acc.carry.style))
  {
    PropertyNamesDiffer();
  }

  /** Font size and line height read only the stored mod: the argument, even `false`, changes nothing. */
  lemma LengthIgnoresArg(acc: Acc, sectionId: string, element: string, property: string, arg: Arg,
                         mods: map<string, string>)
    requires property == FontSize || property == LineHeight
    ensures PropertyStep(acc, sectionId, element, property, arg, mods)
            == PropertyStep(acc, sectionId, element, property, Flag(true), mods)
  {
  }

  /** An unset (or "0") size or line height declares nothing, but still overwrites `$style`. */
  lemma UnsetLengthDeclaresNothing(acc: Acc, sectionId: string, element: string, property: string, arg: Arg,
                                   mods: map<string, string>)
    requires property == FontSize || property == LineHeight
    requires var key := if property == FontSize then "fcl-font-size-" else "fcl-line-height-";
             IsEmpty(Mod(mods, key + sectionId))
    ensures var key := if property == FontSize then "fcl-font-size-" else "fcl-line-height-";
            PropertyStep(acc, sectionId, element, property, arg, mods)
            == acc.(carry := acc.carry.(style := Mod(mods, key + sectionId)))
  {
    PropertyNamesDiffer();
  }

  /** A stored weight id matching the only record: its value is declared and it becomes `$setting`. */
  lemma SingleWeightChosen(acc: Acc, sectionId: string, element: string, x: Choice, mods: map<string, string>)
    requires !IsEmpty(x.id) && !IsEmpty(x.value)
    requires Mod(mods, "fcl-font-weight-" + sectionId) == x.id
    ensures PropertyStep(acc, sectionId, element, FontWeight, List([Full(x)]), mods)
            == Acc(acc.carry.(style := x.value, setting := Some(x)),
                   Declare(acc.rendered, element, FontWeight, x.value), acc.links)
  {
    PropertyNamesDiffer();
    assert Iterated(List([Full(x)])) == [x];
    WeightSingle(acc.carry, x);
    assert acc.links + [] == acc.links;
  }

  /**
    A stored weight id picks the first record with that id in the section's
    own list: its value is declared and it becomes `$setting`.
   */
  lemma ChosenWeight(acc: Acc, sectionId: string, element: string, es: seq<Entry>, i: nat, mods: map<string, string>)
    requires AllFull(es) && i < |es|
    requires !IsEmpty(es[i].choice.id) && Mod(mods, "fcl-font-weight-" + sectionId) == es[i].choice.id
    requires forall j :: 0 <= j < i ==> es[j].choice.id != es[i].choice.id
    ensures var next := PropertyStep(acc, sectionId, element, FontWeight, List(es), mods);
            && next.carry.setting == Some(es[i].choice)
            && next.links == acc.links
            && (!IsEmpty(es[i].choice.value) ==>
                  Lookup(DeclsOf(next.rendered, element), FontWeight) == Some(es[i].choice.value))
  {
    PropertyNamesDiffer();
    assert acc.links + [] == acc.links;
  }

  /**
    A stored font id, with no fallback, picks the first record with that id
    in the section's own list: its value is declared and its `src` queued.
   */
  lemma ChosenFont(acc: Acc, sectionId: string, element: string, es: seq<Entry>, i: nat, mods: map<string, string>)
    requires AllFull(es) && i < |es|
    requires !IsEmpty(es[i].choice.id) && Mod(mods, "fcl-font-family-" + sectionId) == es[i].choice.id
    requires IsEmpty(Mod(mods, "fcl-font-family-fallback-" + sectionId))
    requires forall j :: 0 <= j < i ==> es[j].choice.id != es[i].choice.id
    ensures var next := PropertyStep(acc, sectionId, element, FontFamily, List(es), mods);
            && next.carry.setting == Some(es[i].choice)
            && next.links == acc.links + Queued(Some(es[i].choice))
            && (!IsEmpty(es[i].choice.value) ==>
                  Lookup(DeclsOf(next.rendered, element), FontFamily) == Some(es[i].choice.value))
  {
    PropertyNamesDiffer();
    var list := Iterated(List(es));
    var k := FirstIndex(Ids(list), es[i].choice.id);
    assert k == i;
  }

  /** A stored weight id that no record of the list has is declared as it is. */
  lemma UnmatchedWeightKept(c: Carry, stored: string, list: seq<Choice>)
    requires !IsEmpty(stored)
    requires forall i :: 0 <= i < |list| ==> list[i].id != stored
    ensures WeightStep(c, stored, list).style == stored
  {
    assert stored !in Ids(list);
  }

  /**
    The primary font: a matching record gives its value and queues its own
    `src`; with no match `$style` keeps its old value and the `src` of the
    last record visited (or of the stale `$setting`) is queued instead.
   */
  lemma PrimaryFont(c: Carry, primary: string, list: seq<Choice>)
    requires !IsEmpty(primary)
    ensures var (next, queued) := FamilyStep(c, primary, "", list);
            var k := FirstIndex(Ids(list), primary);
            && (k < |list| ==> next.style == list[k].value && list[k].id == primary && queued == Queued(Some(list[k])))
            && (k == |list| ==> next.style == c.style &&
                                queued == Queued(if list == [] then c.setting else Some(list[|list| - 1])))
            && next.fallback == c.fallback
  {
  }

  /**
    The fallback font: appended after a comma unless its value equals the
    primary's; an unmatched fallback id reuses the previous `$fallback_style`.
   */
  lemma FallbackFont(c: Carry, primary: string, fallbackId: string, list: seq<Choice>)
    requires !IsEmpty(primary) && !IsEmpty(fallbackId)
    ensures var (next, _) := FamilyStep(c, primary, fallbackId, list);
            var (first, _) := FamilyStep(c, primary, "", list);
            var j := FirstIndex(Ids(list), fallbackId);
            && next.fallback == (if j < |list| then list[j].value else c.fallback)
            && next.style == (if next.fallback == first.style then first.style else first.style + "," + next.fallback)
  ensures var (first, queued) := FamilyStep(c, primary, "", list);
          FamilyStep(c, primary, fallbackId, list).1
          == queued + Queued(AfterScan(list, FirstIndex(Ids(list), fallbackId), first.setting))
  {
  }

  /**
    A built-in weight left in `$setting` by the `font-weight` property is
    queued as a null link by a `font-family` property that stores a font id
    but lists no record (`font-family => false`): the built-in weights have
    no `src` key. `$style` keeps the weight's value.
   */
  lemma StaleWeightQueuesEmptyLink(acc: Acc, sectionId: string, element: string, w: Choice, mods: map<string, string>)
    requires w in DefaultWeights && acc.carry.setting == Some(w)
    requires !IsEmpty(Mod(mods, "fcl-font-family-" + sectionId))
    requires IsEmpty(Mod(mods, "fcl-font-family-fallback-" + sectionId))
    ensures PropertyStep(acc, sectionId, element, FontFamily, Flag(false), mods).links == acc.links + [""]
    ensures PropertyStep(acc, sectionId, element, FontFamily, Flag(false), mods).carry == acc.carry
  {
    PropertyNamesDiffer();
    assert Ids([]) == [];
  }

  /** No size, weight, font or line height stored for the section. */
  predicate Unstored(mods: map<string, string>, sectionId: string) {
    && IsEmpty(Mod(mods, "fcl-font-size-" + sectionId))
    && IsEmpty(Mod(mods, "fcl-font-weight-" + sectionId))
    && IsEmpty(Mod(mods, "fcl-font-family-" + sectionId))
    && IsEmpty(Mod(mods, "fcl-line-height-" + sectionId))
  }

  /** With nothing stored and `$style` empty, a property declares and queues nothing and leaves `$style` empty. */
  lemma UnstoredStep(acc: Acc, sectionId: string, element: string, property: string, setting: Arg,
                     mods: map<string, string>)
    requires IsEmpty(acc.carry.style) && Unstored(mods, sectionId)
    ensures var next := PropertyStep(acc, sectionId, element, property, setting, mods);
            next.rendered == acc.rendered && next.links == acc.links && IsEmpty(next.carry.style)
  {
    assert acc.links + [] == acc.links;
  }

  lemma {:induction false} UnstoredArgs(acc: Acc, sectionId: string, element: string, args: Args,
                                        mods: map<string, string>)
    requires IsEmpty(acc.carry.style) && Unstored(mods, sectionId)
    ensures ArgsFrom(acc, sectionId, element, args, mods).rendered == acc.rendered
    ensures ArgsFrom(acc, sectionId, element, args, mods).links == acc.links
    ensures IsEmpty(ArgsFrom(acc, sectionId, element, args, mods).carry.style)
    decreases |args|
  {
    if args != [] {
      UnstoredStep(acc, sectionId, element, args[0].0, args[0].1, mods);
      UnstoredArgs(PropertyStep(acc, sectionId, element, args[0].0, args[0].1, mods), sectionId, element, args[1..], mods);
    }
  }

  /**
    A section `add` stored, with nothing stored for it, declares and queues
    nothing whatever `$style` the previous section left: its first property
    is `font-size`, which overwrites `$style` with the unset mod.
   */
  lemma UnstoredSectionRendersNothing(acc: Acc, sectionId: string, s: Section, mods: map<string, string>)
    requires WellFormed(s) && Unstored(mods, sectionId)
    ensures ArgsFrom(acc, sectionId, s.element, s.args, mods).rendered == acc.rendered
    ensures ArgsFrom(acc, sectionId, s.element, s.args, mods).links == acc.links
  {
    DefaultArgKeys();
    assert Keys(s.args)[..4][0] == FontSize;
    assert s.args[0].0 == FontSize;
    var a1 := PropertyStep(acc, sectionId, s.element, FontSize, s.args[0].1, mods);
    UnsetLengthDeclaresNothing(acc, sectionId, s.element, FontSize, s.args[0].1, mods);
    ArgsFromStep(acc, sectionId, s.element, s.args, mods, a1);
    UnstoredArgs(a1, sectionId, s.element, s.args[1..], mods);
  }

  lemma {:induction false} UnstoredSections(acc: Acc, fcl: Assoc<Section>, mods: map<string, string>)
    requires forall i :: 0 <= i < |fcl| ==> WellFormed(fcl[i].1) && Unstored(mods, fcl[i].0)
    ensures SectionsFrom(acc, fcl, mods).rendered == acc.rendered
    ensures SectionsFrom(acc, fcl, mods).links == acc.links
    decreases |fcl|
  {
    if fcl != [] {
      UnstoredSectionRendersNothing(acc, fcl[0].0, fcl[0].1, mods);
      assert forall i :: 0 <= i < |fcl[1..]| ==> fcl[1..][i] == fcl[i + 1];
      UnstoredSections(ArgsFrom(acc, fcl[0].0, fcl[0].1.element, fcl[0].1.args, mods), fcl[1..], mods);
    }
  }

  /** With nothing stored for any registered section, `output` prints nothing, not even the Typekit script. */
  lemma NothingStoredPrintsNothing(fcl: Assoc<Section>, typekit: string, mods: map<string, string>)
    requires forall i :: 0 <= i < |fcl| ==> WellFormed(fcl[i].1) && Unstored(mods, fcl[i].0)
    ensures Markup(fcl, typekit, mods) == ""
  {
    UnstoredSections(Start, fcl, mods);
  }

  /** The four property names are different strings. */
  lemma PropertyNamesDiffer()
    ensures FontSize != FontWeight && FontSize != FontFamily && FontSize != LineHeight
    ensures FontWeight != FontFamily && FontWeight != LineHeight && FontFamily != LineHeight
  {
    assert FontWeight[5] != FontFamily[5];
    assert FontWeight[0] != LineHeight[0] && FontFamily[0] != LineHeight[0];
  }

  /** The first declaration made on an empty table. */
  lemma DeclareFirst(element: string, property: string, value: string)
    ensures Declare([], element, property, value) == [(element, [(property, value)])]
  {
    var none: Rules := [];
    assert DeclsOf(none, element) == [];
    PutNew<string>([], property, value);
    assert [] + [(property, value)] == [(property, value)];
    PutNew(none, element, [(property, value)]);
    assert none + [(element, [(property, value)])] == [(element, [(property, value)])];
  }

  /** A second property declared for the only element of the table. */
  lemma DeclareSecond(element: string, property: string, value: string, property': string, value': string)
    requires property != property'
    ensures Declare([(element, [(property, value)])], element, property', value')
            == [(element, [(property, value), (property', value')])]
  {
    var rules: Rules := [(element, [(property, value)])];
    assert Keys(rules) == [element];
    assert DeclsOf(rules, element) == [(property, value)];
    assert Keys(DeclsOf(rules, element)) == [property];
    PutNew(DeclsOf(rules, element), property', value');
    assert [(property, value)] + [(property', value')] == [(property, value), (property', value')];
    PutFirst(rules, element, [(property, value), (property', value')]);
  }

  /** A weight list of one record, and its id stored: the record's value is the new `$style`. */
  lemma WeightSingle(c: Carry, x: Choice)
    requires !IsEmpty(x.id)
    ensures WeightStep(c, x.id, [x]) == c.(style := x.value, setting := Some(x))
  {
    assert Ids([x]) == [x.id];
  }

  /** One unrolling of the loop over a section's arguments. */
  lemma ArgsFromStep(acc: Acc, sectionId: string, element: string, args: Args, mods: map<string, string>, next: Acc)
    requires args != []
    requires next == PropertyStep(acc, sectionId, element, args[0].0, args[0].1, mods)
    ensures ArgsFrom(acc, sectionId, element, args, mods) == ArgsFrom(next, sectionId, element, args[1..], mods)
  {
  }

  /**
    A section offering a single weight and no font, size or line height,
    with that weight chosen and nothing else stored: the weight is declared,
    and `font-family` is declared too, with the weight's value, because
    `$style` is not reset; nothing is linked.
   */
  lemma {:induction false} WeightOnlyArgs(sectionId: string, element: string, x: Choice, args: Args, mods: map<string, string>)
    requires !IsEmpty(x.id) && !IsEmpty(x.value)
    requires args == [(FontSize, Flag(false)), (FontWeight, List([Full(x)])),
                      (FontFamily, Flag(false)), (LineHeight, Flag(false))]
    requires IsEmpty(Mod(mods, "fcl-font-size-" + sectionId)) && IsEmpty(Mod(mods, "fcl-line-height-" + sectionId))
    requires IsEmpty(Mod(mods, "fcl-font-family-" + sectionId))
    requires Mod(mods, "fcl-font-weight-" + sectionId) == x.id
    ensures ArgsFrom(Start, sectionId, element, args, mods).rendered
            == [(element, [(FontWeight, x.value), (FontFamily, x.value)])]
    ensures ArgsFrom(Start, sectionId, element, args, mods).links == []
  {
    var r1, r2, r3 := args[1..], args[2..], args[3..];
    assert args[0] == (FontSize, Flag(false)) && r1[0] == (FontWeight, List([Full(x)]));
    assert r2[0] == (FontFamily, Flag(false)) && r3[0] == (LineHeight, Flag(false));
    assert r1[1..] == r2 && r2[1..] == r3 && r3[1..] == [];
    var a1 := Acc(Carry(Mod(mods, "fcl-font-size-" + sectionId), "", None), [], []);
    UnsetLengthDeclaresNothing(Start, sectionId, element, FontSize, Flag(false), mods);
    ArgsFromStep(Start, sectionId, element, args, mods, a1);
    var c2 := Carry(x.value, "", Some(x));
    var a2 := Acc(c2, [(element, [(FontWeight, x.value)])], []);
    SingleWeightChosen(a1, sectionId, element, x, mods);
    DeclareFirst(element, FontWeight, x.value);
    ArgsFromStep(a1, sectionId, element, r1, mods, a2);
    var a3 := Acc(c2, [(element, [(FontWeight, x.value), (FontFamily, x.value)])], []);
    StaleStyleReused(a2, sectionId, element, Flag(false), mods);
    PropertyNamesDiffer();
    DeclareSecond(element, FontWeight, x.value, FontFamily, x.value);
    ArgsFromStep(a2, sectionId, element, r2, mods, a3);
    var a4 := a3.(carry := c2.(style := Mod(mods, "fcl-line-height-" + sectionId)));
    UnsetLengthDeclaresNothing(a3, sectionId, element, LineHeight, Flag(false), mods);
    ArgsFromStep(a3, sectionId, element, r3, mods, a4);
  }

  /** `WeightOnlyArgs` as printed: the style block with that one rule, and the Typekit script if any. */
  lemma WeightOnlySection(sectionId: string, section: Section, x: Choice, mods: map<string, string>, typekit: string)
    requires !IsEmpty(x.id) && !IsEmpty(x.value)
    requires section.args == [(FontSize, Flag(false)), (FontWeight, List([Full(x)])),
                              (FontFamily, Flag(false)), (LineHeight, Flag(false))]
    requires IsEmpty(Mod(mods, "fcl-font-size-" + sectionId)) && IsEmpty(Mod(mods, "fcl-line-height-" + sectionId))
    requires IsEmpty(Mod(mods, "fcl-font-family-" + sectionId))
    requires Mod(mods, "fcl-font-weight-" + sectionId) == x.id
    ensures Markup([(sectionId, section)], typekit, mods)
            == StyleOpen + RulesText([(section.element, [(FontWeight, x.value), (FontFamily, x.value)])]) + StyleClose
               + TypekitTag(typekit)
  {
    var rendered: Rules := [(section.element, [(FontWeight, x.value), (FontFamily, x.value)])];
    WeightOnlyArgs(sectionId, section.element, x, section.args, mods);
    SingleSection(sectionId, section, mods);
    var acc := SectionsFrom(Start, [(sectionId, section)], mods);
    assert acc.rendered == rendered && acc.links == [];
    assert Unique(acc.links) == [] && LinkTags([]) == "";
    assert "" + StyleOpen == StyleOpen;
  }

  /** The loop over a registry of one section is the loop over its arguments. */
  lemma SingleSection(sectionId: string, section: Section, mods: map<string, string>)
    ensures SectionsFrom(Start, [(sectionId, section)], mods) == ArgsFrom(Start, sectionId, section.element, section.args, mods)
  {
    var fcl := [(sectionId, section)];
    assert fcl[1..] == [];
  }
}

=== FILE: wordpress.dfy ===
/**
  The two WordPress helpers `add` calls: `sanitize_key` (a WordPress core
  function, not defined in index.php; it lower-cases and then keeps only a-z, 0-9, `_` and `-`,
  as the doc comment of `FontManager::add` describes ids) and
  `wp_parse_args` (caller values over defaults).
 */
module WordPress {
  import opened Php

  /** `strtolower` on one character: ASCII upper-case letters only. */
  function Lower(c: char): char {
    if 'A' <= c <= 'Z' then (c as int + 32) as char else c
  }

  predicate IsKeyChar(c: char) {
    ('a' <= c <= 'z') || ('0' <= c <= '9') || c == '_' || c == '-'
  }

  predicate IsKey(s: string) {
    forall i :: 0 <= i < |s| ==> IsKeyChar(s[i])
  }

  function SanitizeKey(s: string): (k: string)
    ensures IsKey(k)
    ensures |k| <= |s|
  {
    if s == [] then []
    else
      var c := Lower(s[0]);
      (if IsKeyChar(c) then [c] else []) + SanitizeKey(s[1..])
  }

  /** A key that is already clean is stored as given. */
  lemma {:induction false} SanitizeKeyKeepsKeys(s: string)
    requires IsKey(s)
    ensures SanitizeKey(s) == s
  {
    if s != [] {
      assert IsKey(s[1..]);
      SanitizeKeyKeepsKeys(s[1..]);
    }
  }

  /** Sanitizing twice changes nothing more. */
  lemma SanitizeKeyIdempotent(s: string)
    ensures SanitizeKey(SanitizeKey(s)) == SanitizeKey(s)
  {
    SanitizeKeyKeepsKeys(SanitizeKey(s));
  }

  /** Letters differing only in ASCII case sanitize to the same key. */
  lemma {:induction false} SanitizeKeyIgnoresCase(s: string, t: string)
    requires |s| == |t|
    requires forall i :: 0 <= i < |s| ==> Lower(s[i]) == Lower(t[i])
    ensures SanitizeKey(s) == SanitizeKey(t)
  {
    if s != [] {
      SanitizeKeyIgnoresCase(s[1..], t[1..]);
    }
  }

  /**
    `wp_parse_args($args, $defaults)`: the defaults' keys first and in their
    order, each overridden by the caller's value, then the caller's other keys.
   */
  function ParseArgs<V>(args: Assoc<V>, defaults: Assoc<V>): (r: Assoc<V>)
  {
    PutAll(defaults, args)
  }

  lemma ParseArgsSpec<V>(args: Assoc<V>, defaults: Assoc<V>, k: string)
    requires UniqueKeys(args) && UniqueKeys(defaults)
    ensures UniqueKeys(ParseArgs(args, defaults))
    ensures |ParseArgs(args, defaults)| >= |defaults|
    ensures Keys(ParseArgs(args, defaults))[..|defaults|] == Keys(defaults)
    ensures k in Keys(ParseArgs(args, defaults)) <==> k in Keys(defaults) || k in Keys(args)
    ensures Lookup(ParseArgs(args, defaults), k) ==
            (if k in Keys(args) then Lookup(args, k) else Lookup(defaults, k))
  {
    PutAllPrefix(defaults, args);
    PutAllKeys(defaults, args);
    PutAllLookup(defaults, args, k);
  }
}
